=== FILE: README.md ===
# A verified model of a small ray tracer

This project models the core of a ray tracer written in Rust in the style of
"Ray Tracing in One Weekend". The model covers:

- 3-vectors with list-folding arithmetic (`Vec3`);
- rays and the point at parameter `t` (`Rays`);
- hit records and the face-orientation rule (`HitRecords`);
- the half-b quadratic sphere test (`Spheres`);
- the closest-hit scan over a list of objects (`Hittable`);
- the three materials and the dispatch over them (`Lambertians`, `Metals`, `Dielectrics`, `MaterialDispatch`);
- the thin-lens camera (`Cameras`);
- the recursive colour of a ray (`Integrator`);
- the pixel-channel mapping and the ranged random number (`Util`).

`RealFacts` holds the small steps of real arithmetic that the proofs need.

All quantities are `real`. Operations the model does not interpret are
fields of an `Env` value that is passed explicitly:

- `sqrt`, which is constrained only by `Env.Valid()`: for `x >= 0`, `sqrt(x) >= 0` and `sqrt(x) * sqrt(x) == x`;
- `reflect`, `refract` and `near_zero`, which are left unconstrained.

Random draws are parameters:

- the unit-sphere sample and the uniform number of one bounce form a `Draw`;
- `ray_colour` receives one `Draw` per remaining depth;
- `get_ray` receives its unit-disk sample;
- `randmm_f32` receives its uniform draw.

Some design notes:

- **Sphere records.** `Sphere::hit` never writes `rec.mat`, and `HittableList::hit` starts every object from one scratch record. So the material seen after a hit is the scratch record's material. The model makes that record a parameter (`blank`).
- **Zero directions.** A ray with a zero direction gets no meaningful colour from the source:
  - with any sphere in the world, `a` is zero (src/sphere.rs:20) and so is the discriminant. The root `0 / 0` is NaN (src/sphere.rs:30), and NaN passes both window tests (src/sphere.rs:31), so a hit at `t = NaN` is reported and `ray_colour` goes on to scatter from a NaN point;
  - with an empty world, `ray_colour` reaches the sky and divides by zero in `unit()` (src/main.rs:88).

  The model's `RayColour` returns `None` for such a ray while depth remains. By `Vec3.LenSqrdZero`, `LenSqrd(r.dir) == 0` holds exactly when the direction is the zero vector.
- **Pixel channels.** `write_colour` works in `f32`. `Util.Channel` models its corner cases explicitly:
  - a zero sample count gives an infinite scale;
  - the square root of a negative value is NaN;
  - NaN survives `clamp` and casts to 0;
  - `as i32` truncates toward zero and saturates.

## Source map

Each modelling function and the Rust function it stands for:

- `Vec3.Add`, `Vec3.Sub`, `Vec3.Mul`, `Vec3.Div`: `Vec::add`, `sub`, `mul`, `div` (src/vec.rs:10-48).
- `Vec3.MulF`, `Vec3.DivF`: `Vec::mulf`, `divf` (src/vec.rs:50-64).
- `Vec3.Dot`, `Vec3.Cross`: `Vec::dot`, `cross` (src/vec.rs:66-76).
- `Vec3.Unit`, `Vec3.LenSqrd`, `Vec3.Len`: `Vec::unit`, `len_sqrd`, `len` (src/vec.rs:78-88).
- `Rays.At`: `Ray::at` (src/ray.rs:10-12).
- `HitRecords.SetFaceNorm`: `HitRecord::set_face_norm` (src/hittable.rs:17-24).
- `Spheres.SphereHit`: `Sphere::hit` (src/sphere.rs:12-44). Its parts are `Coefficients` (lines 19-22), `Discriminant` (line 24), `NearRoot` and `FarRoot` (lines 30 and 32), and `Surface` (lines 38-41).
- `Hittable.ObjectHit`: `Hittables::hit` (src/hittable.rs:35-41).
- `Hittable.ListHit`: `HittableList::hit` (src/hittable.rs:48-64). `Step` is one loop iteration and `ScanAll` is the loop.
- `MaterialDispatch.Scatter`: `Materials::scatter` (src/material.rs:28-41).
- `Lambertians.LambertianScatter`: `Lambertian::scatter` (src/lambertian.rs:13-27).
- `Metals.MetalScatter`: `Metal::scatter` (src/metal.rs:13-27).
- `Dielectrics.Reflectance`: `reflectance` (src/dielectric.rs:8-12).
- `Dielectrics.DielectricScatter`: `Dielectric::scatter` (src/dielectric.rs:20-47).
- `Cameras.Init`: `init` (src/camera.rs:17-50).
- `Cameras.GetRay`: `Camera::get_ray` (src/camera.rs:53-65).
- `Integrator.RayColour`: `ray_colour` (src/main.rs:35-102). `Background` is its sky branch (lines 88-101).
- `Util.Channel`, `Util.WriteColour`: the three channel values `write_colour` prints (src/util.rs:15-27).
- `Util.RandMM`: `randmm_f32` (src/util.rs:11-13).

## Model

| member | source | states |
|---|---|---|
| Vec3.AddIsSum | src/vec.rs:10-18 | `add` adds every vector of the list to the receiver componentwise: the result is the receiver plus the sum of the list (the receiver itself for an empty list) |
| Vec3.SubIsSum | src/vec.rs:20-28 | `sub` subtracts every vector of the list: the result is the receiver minus the sum of the list |
| Vec3.MulIsProd | src/vec.rs:30-38 | `mul` is the componentwise (Hadamard) product of the receiver with all vectors of the list |
| Vec3.DivUndoneByProd | src/vec.rs:40-48 | when no divisor has a zero component, multiplying the result of `div` by the product of the divisors gives the receiver back |
| Vec3.DivMulRoundTrip | src/vec.rs:30-48 | `div` by a list undoes `mul` by the same list when no component of the list is zero |
| Vec3.ProdNonZero | src/vec.rs:30-38 | the componentwise product of vectors without zero components has no zero component |
| Vec3.DivFMulF | src/vec.rs:50-64 | `divf(k)` undoes `mulf(k)` for every non-zero `k` |
| Vec3.DotCommutes | src/vec.rs:66-68 | the dot product is symmetric |
| Vec3.CrossAntiCommutes | src/vec.rs:70-76 | swapping the factors of `cross` negates it |
| Vec3.CrossOrthogonal | src/vec.rs:66-76 | `a.cross(b)` is perpendicular to both `a` and `b` |
| Vec3.LenSqrdIsDot | src/vec.rs:82-84 | `len_sqrd` is the dot product of a vector with itself and is never negative |
| Vec3.LenSqrdZero | src/vec.rs:82-84 | the squared length is zero exactly for the zero vector (both directions) |
| Vec3.LenSquared | src/vec.rs:86-88 | `len` is non-negative and its square is `len_sqrd` |
| Vec3.LenNonZero | src/vec.rs:86-88 | a vector other than the zero vector has positive length |
| Vec3.UnitSpec | src/vec.rs:78-80 | for a non-zero vector, `unit` has squared length one and scaling it by the length gives the vector back |
| Vec3.UnitLenOne | src/vec.rs:78-88 | `unit` of a non-zero vector has length exactly one |
| Vec3.LenOfScaled | src/vec.rs:86-88 | scaling by `k >= 0` scales the length by `k` |
| Vec3.UnitOfScaled | src/vec.rs:78-80 | `unit` ignores positive rescaling of its argument |
| Vec3.UnitComponentsBounded | src/vec.rs:78-80 | every component of a unit vector lies in `[-1, 1]` |
| Vec3.AddTestValue | src/vec.rs:116-124 | `(1,2,3).add([(4,5,6),(7,8,9)])` is `(12,15,18)` |
| Vec3.SubTestValue | src/vec.rs:126-134 | `(1,2,3).sub([(4,5,6),(7,8,9)])` is `(-10,-11,-12)` |
| Vec3.MulTestValue | src/vec.rs:136-144 | `(1,2,3).mul([(4,5,6),(7,8,9)])` is `(28,80,162)` |
| Vec3.DivTestValues | src/vec.rs:146-154 | `(1,2,3).div([(4,5,6),(7,8,9)])` is `(1/28, 0.05, 1/18)` |
| Vec3.ScalarTestValues | src/vec.rs:156-193 | the expected values of `len_sqrd`, `mulf`, `divf`, `dot` and `cross` on the test vectors |
| Rays.AtIsPlus | src/ray.rs:10-12 | `at(t)` is the origin displaced by `t` times the direction |
| Rays.AtComponents | src/ray.rs:10-12 | each coordinate of `at(t)` is `orig + dir * t` in that coordinate |
| Rays.AtOnLine | src/ray.rs:10-12 | the displacement from the origin to `at(t)` is parallel to the direction |
| Rays.AtZero | src/ray.rs:10-12 | at parameter zero the ray is at its origin |
| Rays.AtDifference | src/ray.rs:10-12 | the points at `s` and `t` differ by `(t - s)` times the direction, so `at` is affine in `t` |
| Rays.AtTestValue | src/ray.rs:34-38 | the ray from `(1,2,3)` along `(4,5,6)` is at `(9,12,15)` for `t = 2` |
| HitRecords.SetFaceNormSpec | src/hittable.rs:17-24 | the face is front exactly when the ray runs against the outward normal; the stored normal is the outward normal or its negation and never points along the ray; point, `t` and material are untouched |
| HitRecords.FlipNegates | src/hittable.rs:22 | `mulf(-1.0)` is negation, and it negates the dot product with the ray |
| Spheres.SphereHitSpec | src/sphere.rs:12-44 | a hit is reported exactly when the discriminant is non-negative and one of the two roots lies in `[t_min, t_max]`; the near root is preferred; the reported `t` is in the window; on a miss the record is unchanged |
| Spheres.SphereHitRecord | src/sphere.rs:38-41 | on a hit the record's point is the ray at `t`; the normal is `(p - c) / r` or its opposite, turned against the ray, with the front-face flag saying which; the material is kept |
| Spheres.HitNormalIsUnit | src/sphere.rs:38-41 | the normal a hit records has unit length, for either sign of the radius |
| Spheres.SphereHitIgnoresRecord | src/sphere.rs:12-44 | the outcome does not depend on what the incoming record held, only its material carries over |
| Spheres.NearNotAfterFar | src/sphere.rs:28-32 | the first root tried is never beyond the second |
| Spheres.RootSolves | src/sphere.rs:19-32 | both roots solve the half-b quadratic `a t^2 + 2 b t + c = 0` |
| Spheres.OnSphere | src/sphere.rs:19-22 | the quadratic's coefficients measure the squared distance of `at(t)` from the centre, minus `r^2` |
| Spheres.HitPointOnSphere | src/sphere.rs:19-41 | a reported hit point lies on the sphere: its squared distance from the centre is `r^2` |
| Spheres.WindowNarrowing | src/sphere.rs:30-36 | shrinking `t_max` to `lo` keeps a hit exactly when the wider window's hit is at most `lo`, and then the result is the same |
| Hittable.ObjectHitAlone | src/hittable.rs:35-41 | `Hittables::hit` on a sphere is exactly `Sphere::hit`; a hit found starting from the scratch record equals the hit found from a fresh blank record; a miss leaves the scratch record unchanged |
| Hittable.AloneNarrowing | src/hittable.rs:35-41 | narrowing one object's window keeps its hit exactly when that hit was within the narrower window |
| Hittable.ScanSpec | src/hittable.rs:48-64 | the loop invariant of the scan: it reports a hit exactly when some object hits before the current `closest`; `closest` never grows and ends at the nearest hit; the kept record belongs to a winning object |
| Hittable.ScanStepMiss | src/hittable.rs:55-61 | an object that misses leaves the scan's state and conclusions unchanged |
| Hittable.ScanStepHit | src/hittable.rs:55-61 | an object that hits narrows `closest` to its `t`, and the nearest-hit conclusion extends to the whole list |
| Hittable.ListHitExactlyWhenSomeObjectHits | src/hittable.rs:48-64 | the list reports a hit exactly when some object, queried alone on `[t_min, t_max]`, hits; otherwise the caller's record is untouched; an empty list never hits |
| Hittable.ListHitIsNearest | src/hittable.rs:48-64 | a reported hit is in the window, carries the scratch material, and no object hits nearer |
| Hittable.ListHitIsLastNearest | src/hittable.rs:53-60 | the reported record is the one of an object that hits at the nearest `t`, with no later object hitting at the same `t` or before it |
| Lambertians.LambertianScatterSpec | src/lambertian.rs:13-27 | always scatters from the hit point with the albedo, toward normal plus sample, or along the normal when that sum is near zero |
| Lambertians.LambertianDirectionNotDegenerate | src/lambertian.rs:20-23 | the scattered direction can be near zero only if the normal itself is |
| Metals.MetalScatterSpec | src/metal.rs:13-27 | the scattered ray reflects the unit incoming direction about the normal from the hit point; it is reported exactly when it leaves on the normal's side; the attenuation is the albedo |
| Metals.MetalScaleInvariant | src/metal.rs:20 | rescaling the incoming direction by any positive factor does not change the scatter |
| Dielectrics.DielectricScatterSpec | src/dielectric.rs:20-47 | always scatters, from the hit point, with white attenuation; the ratio of indices is `1/ir` entering and `ir` leaving; the cosine is capped at one |
| Dielectrics.DielectricDirection | src/dielectric.rs:37-44 | the ray reflects under total internal reflection or when the draw falls below the Schlick reflectance, and refracts otherwise |
| Dielectrics.GrazingAlwaysReflects | src/dielectric.rs:38-44 | at grazing incidence every draw below one reflects |
| Dielectrics.PowUnit | src/dielectric.rs:11 | integer powers keep the unit interval |
| Dielectrics.PowOne | src/dielectric.rs:11 | every power of one is one |
| Dielectrics.PowZero | src/dielectric.rs:11 | positive powers of zero are zero |
| Dielectrics.ReflectanceHeadOn | src/dielectric.rs:8-12 | at normal incidence Schlick's approximation is `((1 - n) / (1 + n))^2` |
| Dielectrics.ReflectanceMatchedIndex | src/dielectric.rs:8-12 | between equal indices only the `(1 - c)^5` term remains |
| Dielectrics.ReflectanceAtGrazing | src/dielectric.rs:8-12 | at grazing incidence the reflectance is one |
| Dielectrics.ReflectanceBounds | src/dielectric.rs:8-12 | for `c` in `[0, 1]` and a positive index the reflectance lies between the head-on value and one, so it is a probability |
| MaterialDispatch.ScatterNone | src/material.rs:36 | `MaterialNone` never scatters and leaves the attenuation and ray outputs as given |
| MaterialDispatch.ScatterDecision | src/material.rs:28-41 | scattering happens exactly for Lambertian and dielectric materials, and for metal when the reflection leaves on the normal's side |
| MaterialDispatch.ScatterOverwrites | src/material.rs:35-40 | every real material overwrites both outputs, so their old values do not matter; the new ray starts at the hit point |
| MaterialDispatch.LambertianIgnoresRay | src/material.rs:38 | a Lambertian scatter does not depend on the incoming ray |
| MaterialDispatch.ScatterAttenuation | src/material.rs:35-40 | the attenuation is the albedo of Lambertian and metal materials and white for dielectrics; it stays in the unit cube when the albedo does |
| Integrator.DepthExhaustedIsBlack | src/main.rs:36-42 | at depth zero or below the colour is black |
| Integrator.ZeroDirectionHasNoColour | src/sphere.rs:30-31 | with depth left, a zero direction has no defined colour: in the source the sphere test's root is `0 / 0` and passes the window as NaN, and an empty world divides by zero in `unit()` at src/main.rs:88 |
| Integrator.MissIsSky | src/main.rs:88-101 | a ray that hits nothing in `[0.001, f32::MAX]` gets the sky gradient of its direction |
| Integrator.DeclinedIsBlack | src/main.rs:78-85 | a hit whose material declines to scatter is black |
| Integrator.ScatteredIsFiltered | src/main.rs:60-80 | a scattered hit is the attenuation times the colour of the scattered ray one level deeper |
| Integrator.LastBounce | src/main.rs:35-102 | with one level of depth left, any hit is black and a miss is sky |
| Integrator.BackgroundBlend | src/main.rs:88-101 | the sky lies between white and `(0.5, 0.7, 1.0)`, with blue fixed at one |
| Integrator.ColourInUnitCube | src/main.rs:35-102 | when every albedo lies in the unit cube, every defined colour does too, at any depth |
| Cameras.InitFrame | src/camera.rs:31-33 | `w`, `u` and `v` form an orthonormal right-handed frame, and `w` points from the target to the eye |
| Cameras.BackwardSpec | src/camera.rs:31 | `w` is the unit vector along `lf - la` |
| Cameras.RightwardSpec | src/camera.rs:32 | `u` is a unit vector perpendicular to `w` |
| Cameras.ThirdAxis | src/camera.rs:33 | the cross product of two perpendicular unit vectors is a unit vector perpendicular to both |
| Cameras.InitViewport | src/camera.rs:27-37 | the viewport is centred on `lf - w * fd`; its height is `2 h fd` and its width is the aspect ratio times its height; the horizontal side lies along `u` and the vertical side along `v`, both perpendicular to `w` and each perpendicular to the other's axis |
| Cameras.GetRayOrigin | src/camera.rs:53-57 | the ray starts at the eye shifted within the lens by the disk sample scaled by the lens radius along `u` and `v` |
| Cameras.GetRayAims | src/camera.rs:53-64 | whatever the lens sample, the ray reaches the viewport point `llc + s hori + t vert` at parameter one |
| Cameras.PinholeCamera | src/camera.rs:53-64 | with zero aperture every ray starts at the eye and the disk sample has no effect |
| Cameras.LensInPlane | src/camera.rs:17-64 | every ray origin lies in the lens plane through the eye, perpendicular to `w` |
| Cameras.ViewportCorners | src/camera.rs:58-63 | `(s, t) = (0, 0)` aims at the lower-left corner and `(1, 1)` at the opposite corner |
| Util.AsI32 | src/util.rs:22-24 | the cast lands in the `i32` range and truncates toward zero: the floor of in-range non-negative values, the ceiling of negative ones; values at or beyond either bound saturate to `i32::MAX` or `i32::MIN` |
| Util.Clamp | src/util.rs:22 | the result is within the bounds, equals the input when the input already is, and is `lo` below the interval and `hi` above it |
| Util.ChannelInRange | src/util.rs:15-24 | every printed channel is in `[0, 255]`, for every colour and sample count, including NaN and infinite cases |
| Util.ChannelOfBlack | src/util.rs:15-24 | a black channel prints as 0 for every sample count |
| Util.ChannelSaturates | src/util.rs:22-24 | a channel whose gamma-corrected value reaches 0.999 prints as 255 |
| Util.ChannelGamma | src/util.rs:16-24 | gamma 2: the printed `k` satisfies `(k/256)^2 <= c/n`, and `c/n < ((k+1)/256)^2` whenever `k < 255` |
| Util.ChannelMonotone | src/util.rs:15-24 | with a positive sample count a brighter value never prints darker |
| Util.ChannelsIndependent | src/util.rs:18-24 | each printed channel depends only on its own colour component |
| Util.RandMMInRange | src/util.rs:11-13 | a draw in `[0, 1)` gives a value in `[min, max)`; the ends of the draw range map to `min` and `max` |
| Util.RandMMInverse | src/util.rs:11-13 | the map from draw to value is invertible when `min != max` |

## Left out

- Floating point: `f32` rounding, overflow, infinities and NaN are not modelled. Arithmetic is exact over the reals. The only exception is `Util.Channel`, which models the `f32` corner cases of `write_colour`.
- Square root: `sqrt` is uninterpreted apart from the `Env.Valid()` facts. The test expectations that depend on rounded square roots are not restated: `len()` of `(1,2,3)` being `3.741657387`, and the value of `unit()` (src/vec.rs:157, 178-185).
- `reflect`, `refract` and `near_zero` are left uninterpreted: their bodies are not part of this model.
- Randomness: `rand_f32`, `rand_unit` and `rand_unit_disk` are replaced by draws passed as parameters. Nothing is claimed about their distribution.
- Camera field of view: the conversion from `vfov` to `h = tan(theta / 2)` is not modelled. `Cameras.Init` takes `h` directly, because `tan` and `PI` are floating-point library calls.
- Scene and rendering: `random_scene`, the render loop over pixels and samples, the PPM header and the file writes of `write_colour` are I/O and setup, not core logic.
- `Vec3.Unit` requires a vector of non-zero length; the source divides by zero there. Its lemmas assume `LenSqrd(v) != 0`.
- `Spheres.SphereHit` requires a non-zero radius and a non-zero ray direction. With a zero radius the source's normal is infinite or NaN. With a zero direction the source reports a hit at `t = NaN`.
- `Dielectrics.DielectricScatter` requires `ir != 0` on entry and `ir != -1`, for the same reason. `Integrator.SceneMaterial` imposes the same condition on the scene's material.
- `Cameras.Init` requires `lf != la` and a `vup` that is not parallel to the view direction, because the source's `unit()` would divide by zero otherwise.
- `Util.Clamp` requires `lo <= hi`. Rust's `f32::clamp` panics otherwise, and the source always passes `0.0, 0.999`.
- `Integrator.RayColour` returns `None` on a zero direction with depth left. The source computes NaN there, through the sphere test or through `unit()`, as described above.
- `Metals.MetalScatterSpec` states nothing about the reflected direction beyond the uninterpreted `reflect`, because `reflect` is not part of this model.
- `Lambertians.LambertianScatterSpec` states nothing about the distribution of the sample, because the random source is a parameter.
- `Cameras.InitViewport` assumes `h`, `ar` and `fd` are non-negative. The lengths are stated as magnitudes, so negative inputs would flip signs that the stated equalities do not track. The directions of the sides are stated for these inputs too, through their dot products with `u`, `v` and `w`.

=== FILE: camera.dfy ===
/** The thin-lens camera (src/camera.rs).

    `init` builds an orthonormal frame `(u, v, w)` from the look-from point,
    the look-at point and the up vector, and a viewport `focus_dist` away from
    the eye along `-w`; `get_ray` shoots a ray from a point on the lens disk
    through a point of the viewport. The half-height of the field of view,
    `tan(theta / 2)`, is a parameter `h`, and the sample on the unit disk is a
    parameter `disk`. */
module Cameras {

  import opened RealFacts
  import opened Vec3
  import opened Rays

  datatype Camera = Camera(
    orig: Vec,
    llc: Vec,
    hori: Vec,
    vert: Vec,
    w: Vec,
    u: Vec,
    v: Vec,
    lr: real)

  /** `w`: the unit vector from the look-at point back to the eye. */
  function Backward(env: Env, lf: Vec, la: Vec): Vec
    requires env.Valid() && lf != la
  {
    SubOne(lf, la);
    MinusZero(lf, la);
    LenSqrdZero(Minus(lf, la));
    LenNonZero(env, Sub(lf, [la]));
    Unit(env, Sub(lf, [la]))
  }

  /** `u`: the unit vector along `vup x w`, pointing to the right of the view. */
  function Rightward(env: Env, vup: Vec, w: Vec): Vec
    requires env.Valid() && Cross(vup, w) != Zero
  {
    LenSqrdZero(Cross(vup, w));
    LenNonZero(env, Cross(vup, w));
    Unit(env, Cross(vup, w))
  }

  /** The source normalises `lf - la` and `vup x w`; both must be non-zero
      for `unit` to be defined, that is, the eye differs from the look-at
      point and the up vector is not parallel to the view direction. */
  ghost predicate Aimable(env: Env, lf: Vec, la: Vec, vup: Vec)
  {
    env.Valid() && lf != la && Cross(vup, Backward(env, lf, la)) != Zero
  }

  /** `camera::init` with `h = tan(vfov / 2)` given directly. */
  function Init(env: Env, lf: Vec, la: Vec, vup: Vec, h: real, ar: real, ap: real, fd: real): (c: Camera)
    requires Aimable(env, lf, la, vup)
    ensures c.orig == lf
    ensures c.lr == ap / 2.0
  {
    var vh := 2.0 * h;
    var vw := ar * vh;
    var w := Backward(env, lf, la);
    var u := Rightward(env, vup, w);
    var v := Cross(w, u);
    var hori := MulF(u, vw * fd);
    var vert := MulF(v, vh * fd);
    var llc := Sub(lf, [DivF(hori, 2.0), DivF(vert, 2.0), MulF(w, fd)]);
    Camera(lf, llc, hori, vert, w, u, v, ap / 2.0)
  }

  /** The offset of the ray origin from the eye: the disk sample scaled by the
      lens radius, laid out along `u` and `v`. */
  function LensOffset(c: Camera, disk: Vec): Vec
  {
    var rd := MulF(disk, c.lr);
    Add(MulF(c.u, rd.x), [MulF(c.v, rd.y)])
  }

  /** `Camera::get_ray`: the ray from the lens point through the viewport
      point at `(s, t)`. */
  function GetRay(c: Camera, s: real, t: real, disk: Vec): Ray
  {
    var offset := LensOffset(c, disk);
    Ray(Add(c.orig, [offset]),
        Add(c.llc, [MulF(c.hori, s), MulF(c.vert, t), MulF(c.orig, -1.0), MulF(offset, -1.0)]))
  }

  /** The point of the viewport at fractions `(s, t)` of its width and height. */
  function ViewportPoint(c: Camera, s: real, t: real): Vec
  {
    Plus(Plus(c.llc, MulF(c.hori, s)), MulF(c.vert, t))
  }

  // ---------------------------------------------------------------------
  // The frame built by `init`.

  /** `init` builds a right-handed orthonormal frame whose `w` points from
      the look-at point to the eye. */
  lemma InitFrame(env: Env, lf: Vec, la: Vec, vup: Vec, h: real, ar: real, ap: real, fd: real)
    requires Aimable(env, lf, la, vup)
    ensures var c := Init(env, lf, la, vup, h, ar, ap, fd);
      && LenSqrd(c.w) == 1.0 && LenSqrd(c.u) == 1.0 && LenSqrd(c.v) == 1.0
      && Dot(c.u, c.w) == 0.0 && Dot(c.v, c.w) == 0.0 && Dot(c.v, c.u) == 0.0
      && c.v == Cross(c.w, c.u)
      && MulF(c.w, Len(env, Sub(lf, [la]))) == Minus(lf, la)
  {
    var w := Backward(env, lf, la);
    BackwardSpec(env, lf, la);
    RightwardSpec(env, vup, w);
    ThirdAxis(w, Rightward(env, vup, w));
  }

  /** `w` is a unit vector along `lf - la`. */
  lemma BackwardSpec(env: Env, lf: Vec, la: Vec)
    requires env.Valid() && lf != la
    ensures LenSqrd(Backward(env, lf, la)) == 1.0
    ensures MulF(Backward(env, lf, la), Len(env, Sub(lf, [la]))) == Minus(lf, la)
  {
    var d := Sub(lf, [la]);
    SubOne(lf, la);
    MinusZero(lf, la);
    LenSqrdZero(d);
    UnitSpec(env, d);
  }

  /** `u` is a unit vector orthogonal to `w`. */
  lemma RightwardSpec(env: Env, vup: Vec, w: Vec)
    requires env.Valid() && Cross(vup, w) != Zero
    ensures LenSqrd(Rightward(env, vup, w)) == 1.0
    ensures Dot(Rightward(env, vup, w), w) == 0.0
  {
    var cr := Cross(vup, w);
    LenSqrdZero(cr);
    UnitSpec(env, cr);
    CrossOrthogonal(vup, w);
    OrthogonalAfterScaling(cr, w, Len(env, cr));
    DotCommutes(w, Rightward(env, vup, w));
  }

  /** `v = w x u` completes two orthogonal unit vectors to an orthonormal
      frame. */
  lemma ThirdAxis(w: Vec, u: Vec)
    requires LenSqrd(w) == 1.0 && LenSqrd(u) == 1.0 && Dot(u, w) == 0.0
    ensures LenSqrd(Cross(w, u)) == 1.0 && Dot(Cross(w, u), w) == 0.0 && Dot(Cross(w, u), u) == 0.0
  {
    CrossOrthogonal(w, u);
    DotCommutes(u, w);
    CrossOfUnits(w, u);
  }

  /** Dividing a vector by a non-zero scalar keeps it orthogonal to `b`. */
  lemma OrthogonalAfterScaling(a: Vec, b: Vec, l: real)
    requires l != 0.0 && Dot(a, b) == 0.0
    ensures Dot(b, DivF(a, l)) == 0.0
  {
    QuotDot(a.x, a.y, a.z, b.x, b.y, b.z, l);
    MulCancelZero(l, Dot(b, DivF(a, l)));
  }

  lemma QuotDot(a1: real, a2: real, a3: real, b1: real, b2: real, b3: real, l: real)
    requires l != 0.0
    ensures l * (b1 * (a1 / l) + b2 * (a2 / l) + b3 * (a3 / l)) == a1 * b1 + a2 * b2 + a3 * b3
  {
  }

  /** The cross product of two orthogonal unit vectors is a unit vector. */
  lemma CrossOfUnits(a: Vec, b: Vec)
    requires LenSqrd(a) == 1.0 && LenSqrd(b) == 1.0 && Dot(a, b) == 0.0
    ensures LenSqrd(Cross(a, b)) == 1.0
  {
    Lagrange(a, b);
  }

  /** Lagrange's identity in three dimensions: `|a x b|^2 = |a|^2 |b|^2 - (a . b)^2`. */
  lemma Lagrange(a: Vec, b: Vec)
    ensures LenSqrd(Cross(a, b)) == LenSqrd(a) * LenSqrd(b) - Dot(a, b) * Dot(a, b)
  {
  }

  /** The viewport is centred on the point `focus_dist` in front of the eye,
      and its sides are `aspect_ratio * 2h * focus_dist` and
      `2h * focus_dist` long. Its horizontal side runs along `u` and its
      vertical side along `v`: both are perpendicular to the view axis `w`
      and to each other's frame axis. */
  lemma InitViewport(env: Env, lf: Vec, la: Vec, vup: Vec, h: real, ar: real, ap: real, fd: real)
    requires Aimable(env, lf, la, vup)
    requires 0.0 <= h && 0.0 <= ar && 0.0 <= fd
    ensures var c := Init(env, lf, la, vup, h, ar, ap, fd);
      && Plus(Plus(c.llc, DivF(c.hori, 2.0)), DivF(c.vert, 2.0)) == Minus(lf, MulF(c.w, fd))
      && Len(env, c.vert) == 2.0 * h * fd
      && Len(env, c.hori) == ar * Len(env, c.vert)
    ensures var c := Init(env, lf, la, vup, h, ar, ap, fd);
      && Dot(c.hori, c.w) == 0.0 && Dot(c.vert, c.w) == 0.0
      && Dot(c.hori, c.v) == 0.0 && Dot(c.vert, c.u) == 0.0
      && Dot(c.hori, c.u) == ar * (2.0 * h) * fd && Dot(c.vert, c.v) == 2.0 * h * fd
  {
    var c := Init(env, lf, la, vup, h, ar, ap, fd);
    InitFrame(env, lf, la, vup, h, ar, ap, fd);
    var a, b, m := DivF(c.hori, 2.0), DivF(c.vert, 2.0), MulF(c.w, fd);
    SubIsSum(lf, [a, b, m]);
    assert Sum([a, b, m]) == Plus(a, Sum([b, m]));
    assert Sum([b, m]) == Plus(b, Sum([m]));
    assert Sum([m]) == Plus(m, Sum([]));
    SqrtOfOne(env);
    assert Len(env, c.u) == 1.0 && Len(env, c.v) == 1.0;
    MulNonNeg(2.0 * h, fd);
    MulNonNeg(ar, 2.0 * h);
    MulNonNeg(ar * (2.0 * h), fd);
    LenOfScaled(env, c.u, ar * (2.0 * h) * fd);
    LenOfScaled(env, c.v, 2.0 * h * fd);
    AlongFrame(c.u, c.v, c.w, ar * (2.0 * h) * fd, 2.0 * h * fd);
  }

  /** In an orthonormal frame, `u * a` and `v * b` are perpendicular to `w`
      and to the other axis, and their components along their own axes are
      `a` and `b`. */
  lemma AlongFrame(u: Vec, v: Vec, w: Vec, a: real, b: real)
    requires LenSqrd(u) == 1.0 && LenSqrd(v) == 1.0
    requires Dot(u, w) == 0.0 && Dot(v, w) == 0.0 && Dot(v, u) == 0.0
    ensures Dot(MulF(u, a), w) == 0.0 && Dot(MulF(v, b), w) == 0.0
    ensures Dot(MulF(u, a), v) == 0.0 && Dot(MulF(v, b), u) == 0.0
    ensures Dot(MulF(u, a), u) == a && Dot(MulF(v, b), v) == b
  {
    DotScaled(u, w, a);
    DotScaled(v, w, b);
    DotCommutes(u, v);
    DotScaled(u, v, a);
    DotScaled(v, u, b);
    LenSqrdIsDot(u);
    LenSqrdIsDot(v);
    DotScaled(u, u, a);
    DotScaled(v, v, b);
  }

  /** Scaling one factor scales the dot product. */
  lemma DotScaled(a: Vec, b: Vec, k: real)
    ensures Dot(MulF(a, k), b) == k * Dot(a, b)
  {
    ScaledDot(a.x, a.y, a.z, b.x, b.y, b.z, k);
  }

  // ---------------------------------------------------------------------
  // The rays `get_ray` shoots.

  /** `get_ray` starts on the lens: at the eye moved by the lens offset. */
  lemma GetRayOrigin(c: Camera, s: real, t: real, disk: Vec)
    ensures GetRay(c, s, t, disk).orig
         == Plus(c.orig, Plus(MulF(c.u, disk.x * c.lr), MulF(c.v, disk.y * c.lr)))
  {
    var rd := MulF(disk, c.lr);
    AddOne(MulF(c.u, rd.x), MulF(c.v, rd.y));
    AddOne(c.orig, LensOffset(c, disk));
  }

  /** The ray passes through the viewport point at `(s, t)`: one unit of its
      direction from its origin lands there, whatever the lens sample. */
  lemma GetRayAims(c: Camera, s: real, t: real, disk: Vec)
    ensures At(GetRay(c, s, t, disk), 1.0) == ViewportPoint(c, s, t)
  {
    var r := GetRay(c, s, t, disk);
    var offset := LensOffset(c, disk);
    var hs, vt, no, nf := MulF(c.hori, s), MulF(c.vert, t), MulF(c.orig, -1.0), MulF(offset, -1.0);
    AddIsSum(c.orig, [offset]);
    assert Sum([offset]) == Plus(offset, Sum([]));
    AddIsSum(c.llc, [hs, vt, no, nf]);
    assert Sum([hs, vt, no, nf]) == Plus(hs, Sum([vt, no, nf]));
    assert Sum([vt, no, nf]) == Plus(vt, Sum([no, nf]));
    assert Sum([no, nf]) == Plus(no, Sum([nf]));
    assert Sum([nf]) == Plus(nf, Sum([]));
    AtIsPlus(r, 1.0);
    assert MulF(r.dir, 1.0) == r.dir;
  }

  /** A camera with a zero lens radius is a pinhole: every ray starts at the
      eye, and the lens sample changes nothing. */
  lemma PinholeCamera(c: Camera, s: real, t: real, disk: Vec, disk': Vec)
    requires c.lr == 0.0
    ensures GetRay(c, s, t, disk).orig == c.orig
    ensures GetRay(c, s, t, disk) == GetRay(c, s, t, disk')
  {
    NoLensOffset(c, disk);
    NoLensOffset(c, disk');
    AddOne(c.orig, Zero);
  }

  lemma NoLensOffset(c: Camera, disk: Vec)
    requires c.lr == 0.0
    ensures LensOffset(c, disk) == Zero
  {
    var rd := MulF(disk, c.lr);
    assert rd == Zero;
    assert MulF(c.u, rd.x) == Zero && MulF(c.v, rd.y) == Zero;
    AddOne(Zero, Zero);
  }

  /** For a camera built by `init`, the lens offset lies in the lens plane,
      perpendicular to the view axis `w`. */
  lemma LensInPlane(env: Env, lf: Vec, la: Vec, vup: Vec, h: real, ar: real, ap: real, fd: real,
                    s: real, t: real, disk: Vec)
    requires Aimable(env, lf, la, vup)
    ensures var c := Init(env, lf, la, vup, h, ar, ap, fd);
      Dot(Minus(GetRay(c, s, t, disk).orig, c.orig), c.w) == 0.0
  {
    var c := Init(env, lf, la, vup, h, ar, ap, fd);
    InitFrame(env, lf, la, vup, h, ar, ap, fd);
    GetRayOrigin(c, s, t, disk);
    MinusPlus(c.orig, Plus(MulF(c.u, disk.x * c.lr), MulF(c.v, disk.y * c.lr)));
    PlaneCombination(c.u, c.v, c.w, disk.x * c.lr, disk.y * c.lr);
  }

  /** A combination of two vectors orthogonal to `w` is orthogonal to `w`. */
  lemma PlaneCombination(u: Vec, v: Vec, w: Vec, a: real, b: real)
    requires Dot(u, w) == 0.0 && Dot(v, w) == 0.0
    ensures Dot(Plus(MulF(u, a), MulF(v, b)), w) == 0.0
  {
    ScaledDot(u.x, u.y, u.z, w.x, w.y, w.z, a);
    ScaledDot(v.x, v.y, v.z, w.x, w.y, w.z, b);
  }

  lemma ScaledDot(ux: real, uy: real, uz: real, wx: real, wy: real, wz: real, a: real)
    ensures (ux * a) * wx + (uy * a) * wy + (uz * a) * wz == a * (ux * wx + uy * wy + uz * wz)
  {
  }

  /** The corners of the viewport: `(0, 0)` aims at the lower-left corner and
      `(1, 1)` at the opposite one. */
  lemma ViewportCorners(c: Camera)
    ensures ViewportPoint(c, 0.0, 0.0) == c.llc
    ensures ViewportPoint(c, 1.0, 1.0) == Plus(Plus(c.llc, c.hori), c.vert)
  {
  }
}

=== FILE: dielectric.dfy ===
/** Refraction through clear material (src/dielectric.rs). */
module Dielectrics {

  import opened RealFacts
  import opened Vec3
  import opened Rays
  import opened MaterialTypes
  import opened HitRecords

  /** `x.powi(n)`. */
  function Pow(x: real, n: nat): real
  {
    if n == 0 then 1.0 else x * Pow(x, n - 1)
  }

  /** Schlick's approximation of the share of light reflected at cosine `c`
      and index ratio `ri`. The source divides by `1 + ri`. */
  function Reflectance(c: real, ri: real): real
    requires ri != -1.0
  {
    var r0 := (1.0 - ri) / (1.0 + ri);
    var r := r0 * r0;
    r + (1.0 - r) * Pow(1.0 - c, 5)
  }

  /** `f32::min`. */
  function Min(a: real, b: real): real
  {
    if a < b then a else b
  }

  /** The index ratio: entering through the front face divides by the
      index, leaving multiplies by it. */
  function RefractionRatio(m: Dielectric, frontFace: bool): real
    requires frontFace ==> m.ir != 0.0
  {
    if frontFace then 1.0 / m.ir else m.ir
  }

  /** The cosine of the angle between the reversed unit direction and the
      normal, capped at one. */
  function CosTheta(env: Env, r: Ray, rec: HitRecord): real
    requires Len(env, r.dir) != 0.0
  {
    Min(Dot(MulF(Unit(env, r.dir), -1.0), rec.n), 1.0)
  }

  /** Whether Snell's law has no solution: `rr * sin > 1`. */
  predicate CannotRefract(env: Env, rr: real, c: real)
  {
    rr * env.sqrt(1.0 - c * c) > 1.0
  }

  /** `Dielectric::scatter`, with the uniform draw `u` as a parameter: the
      light is reflected when it cannot refract or when the draw falls under
      the reflectance, and refracted otherwise. Nothing is absorbed. */
  function DielectricScatter(env: Env, m: Dielectric, r: Ray, rec: HitRecord, u: real): ScatterResult
    requires Len(env, r.dir) != 0.0 && m.ir != -1.0 && (rec.frontFace ==> m.ir != 0.0)
  {
    var rr := RefractionRatio(m, rec.frontFace);
    var unit := Unit(env, r.dir);
    var c := CosTheta(env, r, rec);
    var dir := if CannotRefract(env, rr, c) || Reflectance(c, rr) > u
      then env.reflect(unit, rec.n)
      else env.refract(unit, rec.n, rr);
    ScatterResult(true, One, Ray(rec.p, dir))
  }

  // ---------------------------------------------------------------------
  // The scatter decision.

  /** A dielectric always scatters, attenuates nothing, and scatters from
      the hit point. The ratio is the reciprocal of the index on the front
      face and the index itself behind it. */
  lemma DielectricScatterSpec(env: Env, m: Dielectric, r: Ray, rec: HitRecord, u: real)
    requires Len(env, r.dir) != 0.0 && m.ir != -1.0 && (rec.frontFace ==> m.ir != 0.0)
    ensures var res := DielectricScatter(env, m, r, rec, u);
      res.scatters && res.att == Vec(1.0, 1.0, 1.0) && res.scattered.orig == rec.p
    ensures rec.frontFace ==> RefractionRatio(m, rec.frontFace) * m.ir == 1.0
    ensures !rec.frontFace ==> RefractionRatio(m, rec.frontFace) == m.ir
    ensures CosTheta(env, r, rec) <= 1.0
  {
  }

  /** The direction is the reflection exactly when refraction is impossible
      or the draw falls below the reflectance; otherwise it is the
      refraction with the index ratio. Total internal reflection therefore
      ignores the draw. */
  lemma DielectricDirection(env: Env, m: Dielectric, r: Ray, rec: HitRecord, u: real)
    requires Len(env, r.dir) != 0.0 && m.ir != -1.0 && (rec.frontFace ==> m.ir != 0.0)
    ensures var rr, c := RefractionRatio(m, rec.frontFace), CosTheta(env, r, rec);
      var dir := DielectricScatter(env, m, r, rec, u).scattered.dir;
      && (CannotRefract(env, rr, c) ==> dir == env.reflect(Unit(env, r.dir), rec.n))
      && (!CannotRefract(env, rr, c) && u < Reflectance(c, rr) ==> dir == env.reflect(Unit(env, r.dir), rec.n))
      && (!CannotRefract(env, rr, c) && Reflectance(c, rr) <= u ==> dir == env.refract(Unit(env, r.dir), rec.n, rr))
  {
  }

  /** At grazing incidence (`c = 0`) the reflectance is one, so every draw
      in `[0, 1)` reflects. */
  lemma GrazingAlwaysReflects(env: Env, m: Dielectric, r: Ray, rec: HitRecord, u: real)
    requires Len(env, r.dir) != 0.0 && m.ir != -1.0 && (rec.frontFace ==> m.ir != 0.0)
    requires CosTheta(env, r, rec) == 0.0 && u < 1.0
    ensures DielectricScatter(env, m, r, rec, u).scattered.dir == env.reflect(Unit(env, r.dir), rec.n)
  {
    ReflectanceAtGrazing(RefractionRatio(m, rec.frontFace));
  }

  // ---------------------------------------------------------------------
  // Schlick's polynomial.

  /** Powers of a number in `[0, 1]` stay in `[0, 1]`. */
  lemma {:induction false} PowUnit(x: real, n: nat)
    requires 0.0 <= x <= 1.0
    ensures 0.0 <= Pow(x, n) <= 1.0
  {
    if n > 0 {
      PowUnit(x, n - 1);
      ProdUnit(x, Pow(x, n - 1));
    }
  }

  lemma {:induction false} PowOne(n: nat)
    ensures Pow(1.0, n) == 1.0
  {
    if n > 0 {
      PowOne(n - 1);
    }
  }

  lemma PowZero(n: nat)
    requires 0 < n
    ensures Pow(0.0, n) == 0.0
  {
  }

  /** Head-on (`c = 1`) the reflectance is the base reflectance
      `((1 - ri) / (1 + ri))^2`. */
  lemma ReflectanceHeadOn(ri: real)
    requires ri != -1.0
    ensures Reflectance(1.0, ri) == ((1.0 - ri) / (1.0 + ri)) * ((1.0 - ri) / (1.0 + ri))
  {
    PowZero(5);
  }

  /** Between equal indices the base reflectance vanishes and only the
      grazing term `(1 - c)^5` is left. */
  lemma ReflectanceMatchedIndex(c: real)
    ensures Reflectance(c, 1.0) == Pow(1.0 - c, 5)
  {
  }

  /** At grazing incidence everything is reflected. */
  lemma ReflectanceAtGrazing(ri: real)
    requires ri != -1.0
    ensures Reflectance(0.0, ri) == 1.0
  {
    PowOne(5);
  }

  /** For a cosine in `[0, 1]` and a positive ratio the reflectance is a
      fraction, no smaller than the base reflectance. */
  lemma ReflectanceBounds(c: real, ri: real)
    requires 0.0 <= c <= 1.0 && 0.0 < ri
    ensures var r0 := (1.0 - ri) / (1.0 + ri);
      0.0 <= r0 * r0 <= Reflectance(c, ri) <= 1.0
  {
    var r0 := (1.0 - ri) / (1.0 + ri);
    QuotBound(1.0 - ri, 1.0 + ri);
    SqUnit(r0);
    PowUnit(1.0 - c, 5);
    Blend(r0 * r0, Pow(1.0 - c, 5));
  }
}

=== FILE: hit_records.dfy ===
/** The hit record and its face-normal orientation (src/hittable.rs). */
module HitRecords {

  import opened Vec3
  import opened Rays
  import opened MaterialTypes

  /** Where a ray met a surface: the point, the normal facing the ray, the
      material, the ray parameter and whether the ray came from outside. */
  datatype HitRecord = HitRecord(p: Vec, n: Vec, mat: Materials, t: real, frontFace: bool)

  /** `set_face_norm`: records whether the ray meets the outward normal
      head-on, and stores the normal turned to face the ray. */
  function SetFaceNorm(rec: HitRecord, r: Ray, outN: Vec): HitRecord
  {
    var front := Dot(r.dir, outN) < 0.0;
    rec.(frontFace := front, n := if front then outN else MulF(outN, -1.0))
  }

  /** The ray hits the front face exactly when it travels against the
      outward normal; the stored normal is the outward normal or its
      opposite, and it never points along the ray. Nothing else changes. */
  lemma SetFaceNormSpec(rec: HitRecord, r: Ray, outN: Vec)
    ensures SetFaceNorm(rec, r, outN).frontFace <==> Dot(r.dir, outN) < 0.0
    ensures SetFaceNorm(rec, r, outN).n == outN || SetFaceNorm(rec, r, outN).n == Neg(outN)
    ensures Dot(r.dir, SetFaceNorm(rec, r, outN).n) <= 0.0
    ensures SetFaceNorm(rec, r, outN).p == rec.p
    ensures SetFaceNorm(rec, r, outN).t == rec.t
    ensures SetFaceNorm(rec, r, outN).mat == rec.mat
  {
    var res := SetFaceNorm(rec, r, outN);
    if !res.frontFace {
      FlipNegates(r.dir, outN);
    }
  }

  /** Flipping a vector negates its dot product with any other. */
  lemma FlipNegates(d: Vec, o: Vec)
    ensures MulF(o, -1.0) == Neg(o)
    ensures Dot(d, Neg(o)) == -Dot(d, o)
  {
  }
}

=== FILE: hittable.dfy ===
/** The objects a ray can hit and the closest-hit scan over a list of them
    (src/hittable.rs). */
module Hittable {

  import opened Vec3
  import opened Rays
  import opened HitRecords
  import opened Spheres

  /** The closed set of hittable shapes; the source has only spheres. */
  datatype Hittables = SphereObject(sphere: Sphere)

  /** A world: the objects in the order they were added. */
  datatype HittableList = HittableList(objects: seq<Hittables>)

  /** An object the model can intersect: a sphere of non-zero radius. */
  predicate ValidObject(o: Hittables)
  {
    o.sphere.r != 0.0
  }

  predicate ValidObjects(objs: seq<Hittables>)
  {
    forall i :: 0 <= i < |objs| ==> ValidObject(objs[i])
  }

  /** `Hittables::hit`: dispatch to the shape. */
  function ObjectHit(env: Env, o: Hittables, r: Ray, tMin: real, tMax: real, rec: HitRecord): HitResult
    requires ValidObject(o) && LenSqrd(r.dir) != 0.0
  {
    match o
    case SphereObject(s) => SphereHit(env, s, r, tMin, tMax, rec)
  }

  /** The state of the scan in `HittableList::hit`: whether anything has been
      hit, the current upper end of the window, the scratch record handed to
      each object, and the caller's record. */
  datatype Scan = Scan(hit: bool, closest: real, temp: HitRecord, rec: HitRecord)

  /** One iteration of the loop: try the object in `[tMin, closest]` with the
      scratch record; on a hit, shrink the window to the hit and copy the
      scratch record out. */
  function Step(env: Env, o: Hittables, r: Ray, tMin: real, st: Scan): Scan
    requires ValidObject(o) && LenSqrd(r.dir) != 0.0
  {
    var res := ObjectHit(env, o, r, tMin, st.closest, st.temp);
    if res.hit then Scan(true, res.rec.t, res.rec, res.rec) else st.(temp := res.rec)
  }

  /** The loop over the objects, in order. */
  function ScanAll(env: Env, objs: seq<Hittables>, r: Ray, tMin: real, st: Scan): Scan
    requires ValidObjects(objs) && LenSqrd(r.dir) != 0.0
    decreases |objs|
  {
    if objs == [] then st else ScanAll(env, objs[1..], r, tMin, Step(env, objs[0], r, tMin, st))
  }

  /** `HittableList::hit`. The scratch record starts as `blank`, the value
      `Default::default()` produces. */
  function ListHit(env: Env, world: HittableList, r: Ray, tMin: real, tMax: real, rec: HitRecord, blank: HitRecord): HitResult
    requires ValidObjects(world.objects) && LenSqrd(r.dir) != 0.0
  {
    var st := ScanAll(env, world.objects, r, tMin, Scan(false, tMax, blank, rec));
    HitResult(st.hit, st.rec)
  }

  // ---------------------------------------------------------------------
  // The reference: each object tried on its own.

  /** What an object reports when it alone is tried in `[tMin, hi]` with a
      fresh scratch record. */
  function Alone(env: Env, o: Hittables, r: Ray, tMin: real, hi: real, blank: HitRecord): HitResult
    requires ValidObject(o) && LenSqrd(r.dir) != 0.0
  {
    ObjectHit(env, o, r, tMin, hi, blank)
  }

  /** No object hits on its own in `[tMin, hi]`. */
  ghost predicate NoneHit(env: Env, objs: seq<Hittables>, r: Ray, tMin: real, hi: real, blank: HitRecord)
    requires ValidObjects(objs) && LenSqrd(r.dir) != 0.0
  {
    forall i :: 0 <= i < |objs| ==> !Alone(env, objs[i], r, tMin, hi, blank).hit
  }

  /** `t` is at or before every hit an object makes on its own. */
  ghost predicate Nearest(env: Env, objs: seq<Hittables>, r: Ray, tMin: real, hi: real, blank: HitRecord, t: real)
    requires ValidObjects(objs) && LenSqrd(r.dir) != 0.0
  {
    forall i :: 0 <= i < |objs| && Alone(env, objs[i], r, tMin, hi, blank).hit ==>
      t <= Alone(env, objs[i], r, tMin, hi, blank).rec.t
  }

  /** `rec` is the hit object `w` makes on its own, and every later object
      that hits on its own does so strictly farther away: among equally
      near hits, the last in the list wins. */
  ghost predicate Winner(env: Env, objs: seq<Hittables>, r: Ray, tMin: real, hi: real, blank: HitRecord, rec: HitRecord, w: int)
    requires ValidObjects(objs) && LenSqrd(r.dir) != 0.0
  {
    && 0 <= w < |objs|
    && Alone(env, objs[w], r, tMin, hi, blank).hit
    && rec == Alone(env, objs[w], r, tMin, hi, blank).rec
    && forall j :: w < j < |objs| && Alone(env, objs[j], r, tMin, hi, blank).hit ==>
         rec.t < Alone(env, objs[j], r, tMin, hi, blank).rec.t
  }

  /** What the loop keeps true: the scratch record carries the default
      material, and after a hit the caller's record is the scratch record
      and the window ends at its parameter. */
  ghost predicate ScanInv(st: Scan, blank: HitRecord)
  {
    st.temp.mat == blank.mat && (st.hit ==> st.rec == st.temp && st.closest == st.rec.t)
  }

  // ---------------------------------------------------------------------
  // The scan against the reference.

  /** Trying an object is the sphere test, and trying it with the scratch
      record gives what it gives alone: the scratch record is only consulted
      for its material. A miss hands the scratch record back. */
  lemma ObjectHitAlone(env: Env, o: Hittables, r: Ray, tMin: real, hi: real, temp: HitRecord, blank: HitRecord)
    requires ValidObject(o) && LenSqrd(r.dir) != 0.0 && temp.mat == blank.mat
    ensures ObjectHit(env, o, r, tMin, hi, temp) == SphereHit(env, o.sphere, r, tMin, hi, temp)
    ensures ObjectHit(env, o, r, tMin, hi, temp).hit == Alone(env, o, r, tMin, hi, blank).hit
    ensures ObjectHit(env, o, r, tMin, hi, temp).hit ==>
      ObjectHit(env, o, r, tMin, hi, temp).rec == Alone(env, o, r, tMin, hi, blank).rec
    ensures !ObjectHit(env, o, r, tMin, hi, temp).hit ==> ObjectHit(env, o, r, tMin, hi, temp).rec == temp
    ensures Alone(env, o, r, tMin, hi, blank).hit ==>
      Alone(env, o, r, tMin, hi, blank).rec.mat == blank.mat &&
      tMin <= Alone(env, o, r, tMin, hi, blank).rec.t <= hi
  {
    SphereHitIgnoresRecord(env, o.sphere, r, tMin, hi, temp, blank);
    SphereHitSpec(env, o.sphere, r, tMin, hi, temp);
    SphereHitSpec(env, o.sphere, r, tMin, hi, blank);
    SphereHitRecord(env, o.sphere, r, tMin, hi, blank);
  }

  /** An object's own hit in a narrower window `[tMin, lo]` is its hit in
      `[tMin, hi]` when that lies at or before `lo`, and there is none
      otherwise. */
  lemma AloneNarrowing(env: Env, o: Hittables, r: Ray, tMin: real, lo: real, hi: real, blank: HitRecord)
    requires env.Valid() && ValidObject(o) && LenSqrd(r.dir) != 0.0 && lo <= hi
    ensures Alone(env, o, r, tMin, lo, blank).hit <==>
      Alone(env, o, r, tMin, hi, blank).hit && Alone(env, o, r, tMin, hi, blank).rec.t <= lo
    ensures Alone(env, o, r, tMin, lo, blank).hit ==>
      Alone(env, o, r, tMin, lo, blank) == Alone(env, o, r, tMin, hi, blank)
  {
    WindowNarrowing(env, o.sphere, r, tMin, lo, hi, blank);
  }

  /** The loop, from any state that keeps the invariant, against the objects
      tried alone in the window the loop starts with: it reports a hit
      exactly when it already had one or some object hits; with no object
      hitting nothing changes; its window only shrinks, to at or before
      every object's hit; and when some object hits, the caller's record
      is the hit of the last object among the nearest. */
  lemma {:induction false} ScanSpec(env: Env, objs: seq<Hittables>, r: Ray, tMin: real, st: Scan, blank: HitRecord)
    requires env.Valid() && ValidObjects(objs) && LenSqrd(r.dir) != 0.0 && ScanInv(st, blank)
    ensures ScanInv(ScanAll(env, objs, r, tMin, st), blank)
    ensures ScanAll(env, objs, r, tMin, st).hit <==> st.hit || !NoneHit(env, objs, r, tMin, st.closest, blank)
    ensures NoneHit(env, objs, r, tMin, st.closest, blank) ==>
      ScanAll(env, objs, r, tMin, st).rec == st.rec && ScanAll(env, objs, r, tMin, st).closest == st.closest
    ensures ScanAll(env, objs, r, tMin, st).closest <= st.closest
    ensures Nearest(env, objs, r, tMin, st.closest, blank, ScanAll(env, objs, r, tMin, st).closest)
    ensures !NoneHit(env, objs, r, tMin, st.closest, blank) ==>
      exists w :: Winner(env, objs, r, tMin, st.closest, blank, ScanAll(env, objs, r, tMin, st).rec, w)
    decreases |objs|
  {
    if objs != [] {
      var o, rest := objs[0], objs[1..];
      var c := st.closest;
      var st' := Step(env, o, r, tMin, st);
      assert ScanAll(env, objs, r, tMin, st) == ScanAll(env, rest, r, tMin, st');
      assert ValidObjects(rest) by {
        forall i | 0 <= i < |rest| ensures ValidObject(rest[i]) {
          assert rest[i] == objs[i + 1];
        }
      }
      ObjectHitAlone(env, o, r, tMin, c, st.temp, blank);
      ScanSpec(env, rest, r, tMin, st', blank);
      if Alone(env, o, r, tMin, c, blank).hit {
        ScanStepHit(env, objs, r, tMin, st, blank);
      } else {
        ScanStepMiss(env, objs, r, tMin, st, blank);
      }
    }
  }

  /** The first object misses: the rest of the scan carries the whole
      answer, with indices shifted by one. */
  lemma ScanStepMiss(env: Env, objs: seq<Hittables>, r: Ray, tMin: real, st: Scan, blank: HitRecord)
    requires env.Valid() && ValidObjects(objs) && LenSqrd(r.dir) != 0.0 && ScanInv(st, blank)
    requires objs != [] && !Alone(env, objs[0], r, tMin, st.closest, blank).hit
    requires ValidObjects(objs[1..]) && Step(env, objs[0], r, tMin, st) == st
    requires var f := ScanAll(env, objs[1..], r, tMin, st);
      && (f.hit <==> st.hit || !NoneHit(env, objs[1..], r, tMin, st.closest, blank))
      && (NoneHit(env, objs[1..], r, tMin, st.closest, blank) ==> f.rec == st.rec && f.closest == st.closest)
      && Nearest(env, objs[1..], r, tMin, st.closest, blank, f.closest)
      && (!NoneHit(env, objs[1..], r, tMin, st.closest, blank) ==>
            exists w :: Winner(env, objs[1..], r, tMin, st.closest, blank, f.rec, w))
    ensures var f := ScanAll(env, objs[1..], r, tMin, st);
      && (f.hit <==> st.hit || !NoneHit(env, objs, r, tMin, st.closest, blank))
      && (NoneHit(env, objs, r, tMin, st.closest, blank) ==> f.rec == st.rec && f.closest == st.closest)
      && Nearest(env, objs, r, tMin, st.closest, blank, f.closest)
      && (!NoneHit(env, objs, r, tMin, st.closest, blank) ==>
            exists w :: Winner(env, objs, r, tMin, st.closest, blank, f.rec, w))
  {
    var rest, c := objs[1..], st.closest;
    var f := ScanAll(env, rest, r, tMin, st);
    assert forall i :: 0 < i < |objs| ==> objs[i] == rest[i - 1];
    if !NoneHit(env, objs, r, tMin, c, blank) {
      var i :| 0 <= i < |objs| && Alone(env, objs[i], r, tMin, c, blank).hit;
      assert Alone(env, rest[i - 1], r, tMin, c, blank).hit;
      var w :| Winner(env, rest, r, tMin, c, blank, f.rec, w);
      assert Winner(env, objs, r, tMin, c, blank, f.rec, w + 1);
    }
    if NoneHit(env, objs, r, tMin, c, blank) {
      assert NoneHit(env, rest, r, tMin, c, blank);
    }
  }

  /** The first object hits at `t0`: the rest of the scan runs in the window
      `[tMin, t0]`, where the other objects' hits are their hits in the
      wider window that lie at or before `t0`. */
  lemma ScanStepHit(env: Env, objs: seq<Hittables>, r: Ray, tMin: real, st: Scan, blank: HitRecord)
    requires env.Valid() && ValidObjects(objs) && LenSqrd(r.dir) != 0.0 && ScanInv(st, blank)
    requires objs != [] && Alone(env, objs[0], r, tMin, st.closest, blank).hit
    requires ValidObjects(objs[1..])
    requires var h := Alone(env, objs[0], r, tMin, st.closest, blank).rec;
      Step(env, objs[0], r, tMin, st) == Scan(true, h.t, h, h) && tMin <= h.t <= st.closest
    requires var h := Alone(env, objs[0], r, tMin, st.closest, blank).rec;
      var f := ScanAll(env, objs[1..], r, tMin, Scan(true, h.t, h, h));
      && f.hit
      && (NoneHit(env, objs[1..], r, tMin, h.t, blank) ==> f.rec == h && f.closest == h.t)
      && f.closest <= h.t
      && Nearest(env, objs[1..], r, tMin, h.t, blank, f.closest)
      && (!NoneHit(env, objs[1..], r, tMin, h.t, blank) ==>
            exists w :: Winner(env, objs[1..], r, tMin, h.t, blank, f.rec, w))
      && ScanInv(f, blank)
    ensures var h := Alone(env, objs[0], r, tMin, st.closest, blank).rec;
      var f := ScanAll(env, objs[1..], r, tMin, Scan(true, h.t, h, h));
      && Nearest(env, objs, r, tMin, st.closest, blank, f.closest)
      && exists w :: Winner(env, objs, r, tMin, st.closest, blank, f.rec, w)
  {
    var rest, c := objs[1..], st.closest;
    var h := Alone(env, objs[0], r, tMin, c, blank).rec;
    var f := ScanAll(env, rest, r, tMin, Scan(true, h.t, h, h));
    assert forall i :: 0 < i < |objs| ==> objs[i] == rest[i - 1];
    forall i | 0 <= i < |rest|
      ensures Alone(env, rest[i], r, tMin, h.t, blank).hit <==>
        Alone(env, rest[i], r, tMin, c, blank).hit && Alone(env, rest[i], r, tMin, c, blank).rec.t <= h.t
      ensures Alone(env, rest[i], r, tMin, h.t, blank).hit ==>
        Alone(env, rest[i], r, tMin, h.t, blank) == Alone(env, rest[i], r, tMin, c, blank)
    {
      AloneNarrowing(env, rest[i], r, tMin, h.t, c, blank);
    }
    assert Nearest(env, objs, r, tMin, c, blank, f.closest) by {
      forall i | 0 <= i < |objs| && Alone(env, objs[i], r, tMin, c, blank).hit
        ensures f.closest <= Alone(env, objs[i], r, tMin, c, blank).rec.t
      {
        if 0 < i && Alone(env, objs[i], r, tMin, c, blank).rec.t <= h.t {
          assert Alone(env, rest[i - 1], r, tMin, h.t, blank).hit;
        }
      }
    }
    if NoneHit(env, rest, r, tMin, h.t, blank) {
      forall j | 0 < j < |objs| && Alone(env, objs[j], r, tMin, c, blank).hit
        ensures f.rec.t < Alone(env, objs[j], r, tMin, c, blank).rec.t
      {
        assert !Alone(env, rest[j - 1], r, tMin, h.t, blank).hit;
      }
      assert Winner(env, objs, r, tMin, c, blank, f.rec, 0);
    } else {
      var w :| Winner(env, rest, r, tMin, h.t, blank, f.rec, w);
      forall j | w + 1 < j < |objs| && Alone(env, objs[j], r, tMin, c, blank).hit
        ensures f.rec.t < Alone(env, objs[j], r, tMin, c, blank).rec.t
      {
        if Alone(env, objs[j], r, tMin, c, blank).rec.t <= h.t {
          assert Alone(env, rest[j - 1], r, tMin, h.t, blank).hit;
        }
      }
      assert Winner(env, objs, r, tMin, c, blank, f.rec, w + 1);
    }
  }
  // ---------------------------------------------------------------------
  // `HittableList::hit` against the reference.

  /** The list reports a hit exactly when some object, tried alone in
      `[tMin, tMax]`, is hit; when it reports none the caller's record is
      untouched. An empty world is never hit. */
  lemma ListHitExactlyWhenSomeObjectHits(env: Env, world: HittableList, r: Ray, tMin: real, tMax: real, rec: HitRecord, blank: HitRecord)
    requires env.Valid() && ValidObjects(world.objects) && LenSqrd(r.dir) != 0.0
    ensures var res := ListHit(env, world, r, tMin, tMax, rec, blank);
      res.hit <==> exists i :: 0 <= i < |world.objects| && Alone(env, world.objects[i], r, tMin, tMax, blank).hit
    ensures !ListHit(env, world, r, tMin, tMax, rec, blank).hit ==> ListHit(env, world, r, tMin, tMax, rec, blank).rec == rec
    ensures world.objects == [] ==> ListHit(env, world, r, tMin, tMax, rec, blank) == HitResult(false, rec)
  {
    ScanSpec(env, world.objects, r, tMin, Scan(false, tMax, blank, rec), blank);
  }

  /** A reported hit is the nearest: it lies in `[tMin, tMax]`, at or before
      every object's own hit in that window. Its material is the scratch
      record's, since a sphere never writes one. */
  lemma ListHitIsNearest(env: Env, world: HittableList, r: Ray, tMin: real, tMax: real, rec: HitRecord, blank: HitRecord)
    requires env.Valid() && ValidObjects(world.objects) && LenSqrd(r.dir) != 0.0
    ensures var res := ListHit(env, world, r, tMin, tMax, rec, blank);
      res.hit ==>
        && tMin <= res.rec.t <= tMax
        && res.rec.mat == blank.mat
        && Nearest(env, world.objects, r, tMin, tMax, blank, res.rec.t)
  {
    var st0 := Scan(false, tMax, blank, rec);
    ScanSpec(env, world.objects, r, tMin, st0, blank);
    var res := ListHit(env, world, r, tMin, tMax, rec, blank);
    if res.hit {
      var w :| Winner(env, world.objects, r, tMin, tMax, blank, res.rec, w);
      ObjectHitAlone(env, world.objects[w], r, tMin, tMax, blank, blank);
    }
  }

  /** A reported hit is exactly what one object reports alone, and every
      later object that hits alone hits strictly farther: of several equally
      near hits, the last object's is kept. */
  lemma ListHitIsLastNearest(env: Env, world: HittableList, r: Ray, tMin: real, tMax: real, rec: HitRecord, blank: HitRecord)
    requires env.Valid() && ValidObjects(world.objects) && LenSqrd(r.dir) != 0.0
    ensures var res := ListHit(env, world, r, tMin, tMax, rec, blank);
      res.hit ==> exists w :: Winner(env, world.objects, r, tMin, tMax, blank, res.rec, w)
  {
    ScanSpec(env, world.objects, r, tMin, Scan(false, tMax, blank, rec), blank);
  }
}

=== FILE: integrator.dfy ===
/** The recursive colour of a ray, `ray_colour` (src/main.rs). */
module Integrator {

  import opened RealFacts
  import opened Vec3
  import opened Rays
  import opened MaterialTypes
  import opened HitRecords
  import opened Hittable
  import opened MaterialDispatch

  datatype Option<T> = None | Some(value: T)

  /** The window the scene is queried on: rays start a little off the
      surface, to skip self-intersection, and reach to the largest `f32`. */
  const TMin: real := 0.001
  const FMax: real := 340282346638528859811704183484516925440.0

  /** The sky colour at the top of the gradient. */
  const Sky: Vec := Vec(0.5, 0.7, 1.0)

  /** The record `ray_colour` hands to the scene, and the placeholder ray and
      attenuation it hands to `scatter`. */
  const StartRecord: HitRecord := HitRecord(Zero, Zero, MaterialNone, 0.0, false)
  const NoRay: Ray := Ray(Zero, Zero)

  /** The sky: a vertical blend from white to `Sky` by the height of the
      unit direction. */
  function Background(env: Env, dir: Vec): Vec
    requires Len(env, dir) != 0.0
  {
    var t := 0.5 * (Unit(env, dir).y + 1.0);
    Add(MulF(One, 1.0 - t), [MulF(Sky, t)])
  }

  /** What the scene's materials need to scatter without dividing by zero. */
  predicate SceneMaterial(m: Materials)
  {
    m.DielectricMaterial? ==> m.dielectric.ir != 0.0 && m.dielectric.ir != -1.0
  }

  /** `ray_colour`, with the scratch record `blank` that the scene's `hit`
      starts from and the draws of each bounce, indexed by the remaining
      depth. `None` stands for the division by zero the source performs on
      a zero direction before the depth runs out. */
  function RayColour(env: Env, r: Ray, world: HittableList, depth: int, blank: HitRecord, draws: int -> Draw): Option<Vec>
    requires env.Valid() && ValidObjects(world.objects) && SceneMaterial(blank.mat)
    decreases depth
  {
    if depth <= 0 then
      Some(Zero)
    else if LenSqrd(r.dir) == 0.0 then
      None
    else
      LenNonZero(env, r.dir);
      ListHitIsNearest(env, world, r, TMin, FMax, StartRecord, blank);
      var hit := ListHit(env, world, r, TMin, FMax, StartRecord, blank);
      if hit.hit then
        var sc := Scatter(env, hit.rec.mat, r, hit.rec, Zero, NoRay, draws(depth));
        if sc.scatters then
          match RayColour(env, sc.scattered, world, depth - 1, blank, draws)
          case None => None
          case Some(c) => Some(Mul(sc.att, [c]))
        else
          Some(Zero)
      else
        Some(Background(env, r.dir))
  }

  // ---------------------------------------------------------------------

  /** An exhausted depth contributes no light. */
  lemma DepthExhaustedIsBlack(env: Env, r: Ray, world: HittableList, depth: int, blank: HitRecord, draws: int -> Draw)
    requires env.Valid() && ValidObjects(world.objects) && SceneMaterial(blank.mat)
    requires depth <= 0
    ensures RayColour(env, r, world, depth, blank, draws) == Some(Vec(0.0, 0.0, 0.0))
  {
  }

  /** A zero direction before the depth runs out has no colour. */
  lemma ZeroDirectionHasNoColour(env: Env, r: Ray, world: HittableList, depth: int, blank: HitRecord, draws: int -> Draw)
    requires env.Valid() && ValidObjects(world.objects) && SceneMaterial(blank.mat)
    requires 0 < depth && LenSqrd(r.dir) == 0.0
    ensures RayColour(env, r, world, depth, blank, draws) == None
  {
  }

  /** A ray that meets nothing takes the colour of the sky. */
  lemma MissIsSky(env: Env, r: Ray, world: HittableList, depth: int, blank: HitRecord, draws: int -> Draw)
    requires env.Valid() && ValidObjects(world.objects) && SceneMaterial(blank.mat)
    requires 0 < depth && LenSqrd(r.dir) != 0.0
    requires !ListHit(env, world, r, TMin, FMax, StartRecord, blank).hit
    ensures Len(env, r.dir) != 0.0
    ensures RayColour(env, r, world, depth, blank, draws) == Some(Background(env, r.dir))
  {
    LenNonZero(env, r.dir);
  }

  /** A ray that hits a material that declines to scatter is black. The
      material consulted is the scratch record's. */
  lemma DeclinedIsBlack(env: Env, r: Ray, world: HittableList, depth: int, blank: HitRecord, draws: int -> Draw)
    requires env.Valid() && ValidObjects(world.objects) && SceneMaterial(blank.mat)
    requires 0 < depth && LenSqrd(r.dir) != 0.0
    requires ListHit(env, world, r, TMin, FMax, StartRecord, blank).hit
    ensures Len(env, r.dir) != 0.0
    ensures var rec := ListHit(env, world, r, TMin, FMax, StartRecord, blank).rec;
      rec.mat == blank.mat && CanScatter(env, blank.mat, r, rec)
    ensures var rec := ListHit(env, world, r, TMin, FMax, StartRecord, blank).rec;
      !Scatter(env, blank.mat, r, rec, Zero, NoRay, draws(depth)).scatters ==>
        RayColour(env, r, world, depth, blank, draws) == Some(Zero)
  {
    LenNonZero(env, r.dir);
    ListHitIsNearest(env, world, r, TMin, FMax, StartRecord, blank);
  }

  /** A ray that hits a material that scatters takes the colour of the
      scattered ray, one level deeper, filtered channel by channel through
      the attenuation. */
  lemma ScatteredIsFiltered(env: Env, r: Ray, world: HittableList, depth: int, blank: HitRecord, draws: int -> Draw)
    requires env.Valid() && ValidObjects(world.objects) && SceneMaterial(blank.mat)
    requires 0 < depth && LenSqrd(r.dir) != 0.0
    requires ListHit(env, world, r, TMin, FMax, StartRecord, blank).hit
    ensures Len(env, r.dir) != 0.0
    ensures var rec := ListHit(env, world, r, TMin, FMax, StartRecord, blank).rec;
      rec.mat == blank.mat && CanScatter(env, blank.mat, r, rec)
    ensures var rec := ListHit(env, world, r, TMin, FMax, StartRecord, blank).rec;
      var sc := Scatter(env, blank.mat, r, rec, Zero, NoRay, draws(depth));
      var rest := RayColour(env, sc.scattered, world, depth - 1, blank, draws);
      sc.scatters ==>
        RayColour(env, r, world, depth, blank, draws) == if rest.Some? then Some(Times(sc.att, rest.value)) else None
  {
    LenNonZero(env, r.dir);
    ListHitIsNearest(env, world, r, TMin, FMax, StartRecord, blank);
    var rec := ListHit(env, world, r, TMin, FMax, StartRecord, blank).rec;
    var sc := Scatter(env, blank.mat, r, rec, Zero, NoRay, draws(depth));
    var rest := RayColour(env, sc.scattered, world, depth - 1, blank, draws);
    if sc.scatters && rest.Some? {
      MulIsProd(sc.att, [rest.value]);
      assert Prod([rest.value]) == Times(rest.value, Prod([]));
    }
  }

  /** With one bounce left every hit is black and every miss is the sky:
      a scattered ray has no depth left to collect light. */
  lemma LastBounce(env: Env, r: Ray, world: HittableList, blank: HitRecord, draws: int -> Draw)
    requires env.Valid() && ValidObjects(world.objects) && SceneMaterial(blank.mat)
    requires LenSqrd(r.dir) != 0.0
    ensures Len(env, r.dir) != 0.0
    ensures var hit := ListHit(env, world, r, TMin, FMax, StartRecord, blank);
      RayColour(env, r, world, 1, blank, draws) == if hit.hit then Some(Zero) else Some(Background(env, r.dir))
  {
    LenNonZero(env, r.dir);
    var hit := ListHit(env, world, r, TMin, FMax, StartRecord, blank);
    if hit.hit {
      DeclinedIsBlack(env, r, world, 1, blank, draws);
      var sc := Scatter(env, blank.mat, r, hit.rec, Zero, NoRay, draws(1));
      if sc.scatters {
        ScatteredIsFiltered(env, r, world, 1, blank, draws);
        DepthExhaustedIsBlack(env, sc.scattered, world, 0, blank, draws);
        FilterBlack(sc.att);
      }
    } else {
      MissIsSky(env, r, world, 1, blank, draws);
    }
  }

  /** The sky colour lies between white and `Sky` in every channel. */
  lemma BackgroundBlend(env: Env, dir: Vec)
    requires env.Valid() && LenSqrd(dir) != 0.0
    ensures Len(env, dir) != 0.0
    ensures var b := Background(env, dir);
      0.5 <= b.x <= 1.0 && 0.7 <= b.y <= 1.0 && b.z == 1.0
  {
    UnitComponentsBounded(env, dir);
    var t := 0.5 * (Unit(env, dir).y + 1.0);
    AddOne(MulF(One, 1.0 - t), MulF(Sky, t));
    SkyBlend(t);
  }

  /** Moving a fraction `t` of the way from white to `Sky`. */
  lemma SkyBlend(t: real)
    requires 0.0 <= t <= 1.0
    ensures var b := Plus(MulF(One, 1.0 - t), MulF(Sky, t));
      0.5 <= b.x <= 1.0 && 0.7 <= b.y <= 1.0 && b.z == 1.0
  {
  }

  /** Light is never amplified: when every material dims, every colour the
      integrator returns lies in the unit cube. */
  lemma {:induction false} ColourInUnitCube(env: Env, r: Ray, world: HittableList, depth: int, blank: HitRecord, draws: int -> Draw)
    requires env.Valid() && ValidObjects(world.objects) && SceneMaterial(blank.mat) && Dims(blank.mat)
    ensures RayColour(env, r, world, depth, blank, draws).Some? ==>
      InUnitCube(RayColour(env, r, world, depth, blank, draws).value)
    decreases depth
  {
    if 0 < depth && LenSqrd(r.dir) != 0.0 {
      var hit := ListHit(env, world, r, TMin, FMax, StartRecord, blank);
      if hit.hit {
        DeclinedIsBlack(env, r, world, depth, blank, draws);
        ScatteredIsFiltered(env, r, world, depth, blank, draws);
        var sc := Scatter(env, blank.mat, r, hit.rec, Zero, NoRay, draws(depth));
        if sc.scatters {
          ScatterAttenuation(env, blank.mat, r, hit.rec, Zero, NoRay, draws(depth));
          ColourInUnitCube(env, sc.scattered, world, depth - 1, blank, draws);
          var rest := RayColour(env, sc.scattered, world, depth - 1, blank, draws);
          if rest.Some? {
            FilterInUnitCube(sc.att, rest.value);
          }
        }
      } else {
        MissIsSky(env, r, world, depth, blank, draws);
        BackgroundBlend(env, r.dir);
      }
    }
  }

  lemma FilterBlack(a: Vec)
    ensures Times(a, Zero) == Zero
  {
  }

  lemma FilterInUnitCube(a: Vec, c: Vec)
    requires InUnitCube(a) && InUnitCube(c)
    ensures InUnitCube(Times(a, c))
  {
    ProdUnit(a.x, c.x);
    ProdUnit(a.y, c.y);
    ProdUnit(a.z, c.z);
  }
}

=== FILE: lambertian.dfy ===
/** Diffuse scattering (src/lambertian.rs). */
module Lambertians {

  import opened Vec3
  import opened Rays
  import opened MaterialTypes
  import opened HitRecords

  /** `Lambertian::scatter`, with the random unit vector `sample` as a
      parameter: scatter from the hit point along the normal nudged by the
      sample, falling back to the bare normal when the nudged direction is
      (nearly) zero. */
  function LambertianScatter(env: Env, m: Lambertian, rec: HitRecord, sample: Vec): ScatterResult
  {
    var dir := Add(rec.n, [sample]);
    ScatterResult(true, m.albedo, Ray(rec.p, if env.nearZero(dir) then rec.n else dir))
  }

  /** A Lambertian surface always scatters, with its albedo as attenuation,
      from the hit point, along the normal plus the sample unless that sum is
      near zero, in which case along the normal. */
  lemma LambertianScatterSpec(env: Env, m: Lambertian, rec: HitRecord, sample: Vec)
    ensures var res := LambertianScatter(env, m, rec, sample);
      && res.scatters
      && res.att == m.albedo
      && res.scattered.orig == rec.p
      && (env.nearZero(Plus(rec.n, sample)) ==> res.scattered.dir == rec.n)
      && (!env.nearZero(Plus(rec.n, sample)) ==> res.scattered.dir == Plus(rec.n, sample))
  {
    AddIsSum(rec.n, [sample]);
    assert Sum([sample]) == Plus(sample, Sum([]));
  }

  /** The fallback never makes things worse: the scattered direction is near
      zero only if the normal itself is. */
  lemma LambertianDirectionNotDegenerate(env: Env, m: Lambertian, rec: HitRecord, sample: Vec)
    ensures env.nearZero(LambertianScatter(env, m, rec, sample).scattered.dir) ==> env.nearZero(rec.n)
  {
  }
}

=== FILE: material.dfy ===
/** The `scatter` dispatch over `Materials` (src/material.rs). */
module MaterialDispatch {

  import opened Vec3
  import opened Rays
  import opened MaterialTypes
  import opened HitRecords
  import opened Lambertians
  import opened Metals
  import opened Dielectrics

  /** The random draws one bounce may consume: the random unit vector of
      diffuse scattering and the uniform number in `[0, 1)` of the
      dielectric's reflect-or-refract choice. */
  datatype Draw = Draw(unitSample: Vec, u: real)

  /** When a material's `scatter` divides only by non-zero numbers: metal
      and glass normalise the incoming direction, and glass divides by its
      index on the front face and by `1 + ratio` in the reflectance. */
  predicate CanScatter(env: Env, m: Materials, r: Ray, rec: HitRecord)
  {
    match m
    case MaterialNone => true
    case LambertianMaterial(_) => true
    case MetalMaterial(_) => Len(env, r.dir) != 0.0
    case DielectricMaterial(d) => Len(env, r.dir) != 0.0 && d.ir != -1.0 && (rec.frontFace ==> d.ir != 0.0)
  }

  /** `Materials::scatter`. `att` and `scattered` are the values the
      out-parameters hold on entry. */
  function Scatter(env: Env, m: Materials, r: Ray, rec: HitRecord, att: Vec, scattered: Ray, draw: Draw): ScatterResult
    requires CanScatter(env, m, r, rec)
  {
    match m
    case MaterialNone => ScatterResult(false, att, scattered)
    case DielectricMaterial(d) => DielectricScatter(env, d, r, rec, draw.u)
    case LambertianMaterial(l) => LambertianScatter(env, l, rec, draw.unitSample)
    case MetalMaterial(mt) => MetalScatter(env, mt, r, rec)
  }

  /** A colour whose channels all lie in `[0, 1]`. */
  predicate InUnitCube(v: Vec)
  {
    0.0 <= v.x <= 1.0 && 0.0 <= v.y <= 1.0 && 0.0 <= v.z <= 1.0
  }

  /** A material whose attenuation never amplifies light. */
  predicate Dims(m: Materials)
  {
    match m
    case LambertianMaterial(l) => InUnitCube(l.albedo)
    case MetalMaterial(mt) => InUnitCube(mt.albedo)
    case _ => true
  }

  // ---------------------------------------------------------------------

  /** No material declines and also writes: `MaterialNone` declines and
      leaves both out-parameters as they were. */
  lemma ScatterNone(env: Env, r: Ray, rec: HitRecord, att: Vec, scattered: Ray, draw: Draw)
    ensures Scatter(env, MaterialNone, r, rec, att, scattered, draw) == ScatterResult(false, att, scattered)
  {
  }

  /** Which materials scatter: diffuse and glass always, metal exactly when
      the scattered ray leaves on the normal's side, the empty material
      never. */
  lemma ScatterDecision(env: Env, m: Materials, r: Ray, rec: HitRecord, att: Vec, scattered: Ray, draw: Draw)
    requires CanScatter(env, m, r, rec)
    ensures var res := Scatter(env, m, r, rec, att, scattered, draw);
      res.scatters <==>
        || m.LambertianMaterial?
        || m.DielectricMaterial?
        || (m.MetalMaterial? && Dot(res.scattered.dir, rec.n) > 0.0)
  {
    match m
    case MaterialNone =>
    case LambertianMaterial(l) => LambertianScatterSpec(env, l, rec, draw.unitSample);
    case MetalMaterial(mt) => MetalScatterSpec(env, mt, r, rec);
    case DielectricMaterial(d) => DielectricScatterSpec(env, d, r, rec, draw.u);
  }

  /** Every real material overwrites both out-parameters, whatever they held,
      and sends the new ray from the hit point. */
  lemma ScatterOverwrites(env: Env, m: Materials, r: Ray, rec: HitRecord, att1: Vec, sc1: Ray, att2: Vec, sc2: Ray, draw: Draw)
    requires CanScatter(env, m, r, rec) && m != MaterialNone
    ensures Scatter(env, m, r, rec, att1, sc1, draw) == Scatter(env, m, r, rec, att2, sc2, draw)
    ensures Scatter(env, m, r, rec, att1, sc1, draw).scattered.orig == rec.p
  {
    match m
    case LambertianMaterial(l) => LambertianScatterSpec(env, l, rec, draw.unitSample);
    case MetalMaterial(mt) => MetalScatterSpec(env, mt, r, rec);
    case DielectricMaterial(d) => DielectricScatterSpec(env, d, r, rec, draw.u);
  }

  /** Diffuse scattering does not look at the incoming ray. */
  lemma LambertianIgnoresRay(env: Env, l: Lambertian, r1: Ray, r2: Ray, rec: HitRecord, att: Vec, scattered: Ray, draw: Draw)
    ensures Scatter(env, LambertianMaterial(l), r1, rec, att, scattered, draw)
         == Scatter(env, LambertianMaterial(l), r2, rec, att, scattered, draw)
  {
  }

  /** The attenuation of a scattering material is its albedo, or white for
      glass; so a material that dims keeps the attenuation in the unit
      cube. */
  lemma ScatterAttenuation(env: Env, m: Materials, r: Ray, rec: HitRecord, att: Vec, scattered: Ray, draw: Draw)
    requires CanScatter(env, m, r, rec)
    ensures var res := Scatter(env, m, r, rec, att, scattered, draw);
      && (m.LambertianMaterial? ==> res.att == m.lambertian.albedo)
      && (m.MetalMaterial? ==> res.att == m.metal.albedo)
      && (m.DielectricMaterial? ==> res.att == One)
      && (Dims(m) && res.scatters ==> InUnitCube(res.att))
  {
    match m
    case MaterialNone =>
    case LambertianMaterial(l) => LambertianScatterSpec(env, l, rec, draw.unitSample);
    case MetalMaterial(mt) => MetalScatterSpec(env, mt, r, rec);
    case DielectricMaterial(d) => DielectricScatterSpec(env, d, r, rec, draw.u);
  }
}

=== FILE: material_types.dfy ===
/** The material records and the `Materials` enum (src/material.rs,
    src/lambertian.rs, src/metal.rs, src/dielectric.rs).

    The records live here, apart from their `scatter` logic, because a hit
    record carries a material and every `scatter` reads a hit record. */
module MaterialTypes {

  import opened Vec3
  import opened Rays

  /** A diffuse surface with a colour. */
  datatype Lambertian = Lambertian(albedo: Vec)

  /** A mirror-like surface with a colour. */
  datatype Metal = Metal(albedo: Vec)

  /** A clear surface with a refractive index. */
  datatype Dielectric = Dielectric(ir: real)

  /** The four variants a hit can carry. */
  datatype Materials =
    | MaterialNone
    | DielectricMaterial(dielectric: Dielectric)
    | LambertianMaterial(lambertian: Lambertian)
    | MetalMaterial(metal: Metal)

  /** What a `scatter` call produces: its boolean answer and the values it
      leaves in the `att` and `scattered` out-parameters. */
  datatype ScatterResult = ScatterResult(scatters: bool, att: Vec, scattered: Ray)
}

=== FILE: metal.dfy ===
/** Mirror reflection (src/metal.rs). */
module Metals {

  import opened Vec3
  import opened Rays
  import opened MaterialTypes
  import opened HitRecords

  /** `Metal::scatter`: reflect the unit incoming direction about the normal;
      the ray is absorbed when the reflection does not leave the surface.
      The source normalises `r.dir`, so its length must not be zero. */
  function MetalScatter(env: Env, m: Metal, r: Ray, rec: HitRecord): ScatterResult
    requires Len(env, r.dir) != 0.0
  {
    var refl := env.reflect(Unit(env, r.dir), rec.n);
    ScatterResult(Dot(refl, rec.n) > 0.0, m.albedo, Ray(rec.p, refl))
  }

  /** A metal scatters exactly when the scattered ray leaves on the normal's
      side. Whether or not it does, the out-parameters are written: the
      attenuation is the albedo and the ray is the reflection of the unit
      incoming direction, from the hit point. */
  lemma MetalScatterSpec(env: Env, m: Metal, r: Ray, rec: HitRecord)
    requires Len(env, r.dir) != 0.0
    ensures var res := MetalScatter(env, m, r, rec);
      && (res.scatters <==> Dot(res.scattered.dir, rec.n) > 0.0)
      && res.att == m.albedo
      && res.scattered == Ray(rec.p, env.reflect(Unit(env, r.dir), rec.n))
  {
  }

  /** Only the direction of the incoming ray matters, not its length:
      scaling it by a positive factor gives the same result. */
  lemma MetalScaleInvariant(env: Env, m: Metal, r: Ray, rec: HitRecord, k: real)
    requires env.Valid() && LenSqrd(r.dir) != 0.0 && 0.0 < k
    ensures Len(env, r.dir) != 0.0 && Len(env, MulF(r.dir, k)) != 0.0
    ensures MetalScatter(env, m, Ray(r.orig, MulF(r.dir, k)), rec) == MetalScatter(env, m, r, rec)
  {
    UnitOfScaled(env, r.dir, k);
  }
}

=== FILE: rays.dfy ===
/** Rays (src/ray.rs): an origin and a direction, evaluated at a parameter. */
module Rays {

  import opened Vec3

  datatype Ray = Ray(orig: Vec, dir: Vec)

  /** `r.at(t)`: the origin plus the direction scaled by `t`, written as the
      source writes it, through the n-ary `add`. */
  function At(r: Ray, t: real): Vec
  {
    Add(r.orig, [MulF(r.dir, t)])
  }

  /** `at` adds the scaled direction to the origin. */
  lemma AtIsPlus(r: Ray, t: real)
    ensures At(r, t) == Plus(r.orig, MulF(r.dir, t))
  {
    AddOne(r.orig, MulF(r.dir, t));
  }

  /** The point at `t` is the origin moved `t` times along the direction,
      coordinate by coordinate. */
  lemma AtComponents(r: Ray, t: real)
    ensures At(r, t) == Vec(r.orig.x + r.dir.x * t, r.orig.y + r.dir.y * t, r.orig.z + r.dir.z * t)
  {
    AtIsPlus(r, t);
    var m := MulF(r.dir, t);
    assert m.x == r.dir.x * t && m.y == r.dir.y * t && m.z == r.dir.z * t;
  }

  /** The displacement from the origin is the direction scaled by `t`: the
      point lies on the ray's line. */
  lemma AtOnLine(r: Ray, t: real)
    ensures Minus(At(r, t), r.orig) == MulF(r.dir, t)
  {
    AtIsPlus(r, t);
    MinusPlus(r.orig, MulF(r.dir, t));
  }

  /** At parameter zero the ray is at its origin. */
  lemma AtZero(r: Ray)
    ensures At(r, 0.0) == r.orig
  {
    AtComponents(r, 0.0);
  }

  /** Two points on a ray differ by the direction scaled by the difference
      of their parameters. */
  lemma AtDifference(r: Ray, s: real, t: real)
    ensures Minus(At(r, t), At(r, s)) == MulF(r.dir, t - s)
  {
    AtComponents(r, s);
    AtComponents(r, t);
    assert r.dir.x * t - r.dir.x * s == r.dir.x * (t - s);
    assert r.dir.y * t - r.dir.y * s == r.dir.y * (t - s);
    assert r.dir.z * t - r.dir.z * s == r.dir.z * (t - s);
  }

  /** The value the source's unit test asserts. */
  lemma AtTestValue()
    ensures At(Ray(Vec(1.0, 2.0, 3.0), Vec(4.0, 5.0, 6.0)), 2.0) == Vec(9.0, 12.0, 15.0)
  {
    AtComponents(Ray(Vec(1.0, 2.0, 3.0), Vec(4.0, 5.0, 6.0)), 2.0);
  }
}

=== FILE: real_facts.dfy ===
/** Facts about real arithmetic that the geometry relies on.

    Each lemma makes one small non-linear step, so that the solver never has
    to combine a non-linear fact with a long linear argument. */
module RealFacts {

  lemma SqNonNeg(a: real)
    ensures 0.0 <= a * a
  {
  }

  /** Three non-negative terms that add up to zero are all zero. */
  lemma ZeroOfSquares(t: real, a: real, b: real, c: real)
    requires 0.0 <= a && 0.0 <= b && 0.0 <= c && t == a + b + c && t == 0.0
    ensures a <= 0.0 && b <= 0.0 && c <= 0.0
  {
  }

  lemma MulNonNeg(a: real, b: real)
    requires 0.0 <= a && 0.0 <= b
    ensures 0.0 <= a * b
  {
  }

  lemma MulPos(a: real, b: real)
    requires 0.0 < a && 0.0 < b
    ensures 0.0 < a * b
  {
  }

  lemma MulNonZero(a: real, b: real)
    requires a != 0.0 && b != 0.0
    ensures a * b != 0.0
  {
  }

  /** Scaling a non-negative number by a factor of at most one does not
      increase it. */
  lemma ProdLe(a: real, b: real)
    requires 0.0 <= a && b <= 1.0
    ensures a * b <= a
  {
    MulNonNeg(a, 1.0 - b);
    ScaleComplement(a, b);
    NonNegDiff(a * (1.0 - b), a, a * b);
  }

  lemma ScaleComplement(a: real, b: real)
    ensures a * (1.0 - b) == a - a * b
  {
  }

  lemma NonNegDiff(p: real, a: real, m: real)
    requires 0.0 <= p && p == a - m
    ensures m <= a
  {
  }

  /** The unit interval is closed under multiplication. */
  lemma ProdUnit(a: real, b: real)
    requires 0.0 <= a <= 1.0 && 0.0 <= b <= 1.0
    ensures 0.0 <= a * b <= 1.0
  {
    MulNonNeg(a, b);
    ProdLe(a, b);
  }

  /** Squaring is strictly increasing on the non-negative reals. */
  lemma SqMono(a: real, l: real)
    requires 0.0 <= l && l < a
    ensures l * l < a * a
  {
    MulPos(a - l, a + l);
    DiffOfSquares(a, l);
    PosDiff((a - l) * (a + l), a * a, l * l);
  }

  lemma DiffOfSquares(a: real, l: real)
    ensures (a - l) * (a + l) == a * a - l * l
  {
  }

  lemma PosDiff(p: real, q: real, r: real)
    requires 0.0 < p && p == q - r
    ensures r < q
  {
  }

  lemma NegSq(a: real)
    ensures (-a) * (-a) == a * a
  {
  }

  /** A number whose square is at most `l * l` lies in `[-l, l]`. */
  lemma SqBound(a: real, l: real)
    requires 0.0 <= l && a * a <= l * l
    ensures -l <= a <= l
  {
    SqUpper(a, l);
    NegSq(a);
    SqUpper(-a, l);
  }

  lemma SqUpper(a: real, l: real)
    requires 0.0 <= l && a * a <= l * l
    ensures a <= l
  {
    if l < a {
      SqMono(a, l);
    }
  }

  /** The only non-negative square root of one is one. */
  lemma RootOfOne(s: real)
    requires 0.0 <= s && s * s == 1.0
    ensures s == 1.0
  {
    if s < 1.0 {
      SqMono(1.0, s);
    } else if 1.0 < s {
      SqMono(s, 1.0);
    }
  }

  /** A non-zero factor can be cancelled from both sides of an equation. */
  lemma CancelScalar(a: real, b: real, k: real)
    requires k != 0.0 && a * k == b * k
    ensures a == b
  {
    FactorOut(a, b, k);
    if a != b {
      MulNonZero(a - b, k);
    }
  }

  lemma FactorOut(a: real, b: real, k: real)
    ensures (a - b) * k == a * k - b * k
  {
  }

  /** The square of a quotient `q = a / l`, scaled by `k = l * l`, is the
      square of the numerator. */
  lemma QuotSquare(q: real, a: real, l: real, k: real)
    requires l != 0.0 && q * l == a && k == l * l
    ensures q * q * k == a * a
  {
  }

  /** Three such scaled squares add up to the sum of the numerators' squares. */
  lemma SumOfScaledSquares(x: real, y: real, z: real, k: real, a: real, b: real, c: real)
    requires a * a * k == x * x && b * b * k == y * y && c * c * k == z * z
    ensures (a * a + b * b + c * c) * k == x * x + y * y + z * z
  {
  }

  /** If scaling a sum of squares by a non-zero `k` gives `k` back, the sum is
      one. */
  lemma CancelSumOfSquares(a: real, b: real, c: real, k: real, x: real, y: real, z: real)
    requires k != 0.0
    requires (a * a + b * b + c * c) * k == x * x + y * y + z * z && k == x * x + y * y + z * z
    ensures a * a + b * b + c * c == 1.0
  {
  }

  /** The quotients of three numbers by the root of their sum of squares have
      squares summing to one. */
  lemma QuotientsSquareToOne(x: real, y: real, z: real, l: real, k: real, a: real, b: real, c: real)
    requires l != 0.0 && k != 0.0 && k == l * l && k == x * x + y * y + z * z
    requires a * l == x && b * l == y && c * l == z
    ensures a * a + b * b + c * c == 1.0
  {
    QuotSquare(a, x, l, k);
    QuotSquare(b, y, l, k);
    QuotSquare(c, z, l, k);
    SumOfScaledSquares(x, y, z, k, a, b, c);
    CancelSumOfSquares(a, b, c, k, x, y, z);
  }

  /** A number whose square is non-zero is itself non-zero. */
  lemma RootNonZero(l: real, k: real)
    requires k != 0.0 && l * l == k
    ensures l != 0.0
  {
  }

  /** A coordinate divided by the (positive) length of its vector lies in
      [-1, 1]. */
  lemma CoordinateRatioBounded(x: real, y: real, z: real, l: real)
    requires 0.0 < l && l * l == x * x + y * y + z * z
    ensures -1.0 <= x / l <= 1.0
  {
    SqNonNeg(y);
    SqNonNeg(z);
    SqBound(x, l);
    QuotBound(x, l);
  }

  lemma QuotBound(a: real, l: real)
    requires 0.0 < l && -l <= a <= l
    ensures -1.0 <= a / l <= 1.0
  {
  }
  /** Dividing by a positive number preserves order. */
  lemma QuotMono(p: real, q: real, a: real)
    requires 0.0 < a && p <= q
    ensures p / a <= q / a
  {
  }

  lemma MulCancelZero(a: real, x: real)
    requires a != 0.0 && a * x == 0.0
    ensures x == 0.0
  {
  }

  lemma ShiftedSquare(a: real, b: real, c: real, t: real)
    requires (t * a + b) * (t * a + b) == b * b - a * c
    ensures a * (a * t * t + 2.0 * b * t + c) == 0.0
  {
  }

  lemma SquareOfShift(u: real, b: real, w: real)
    requires u + b == w
    ensures (u + b) * (u + b) == w * w
  {
  }

  lemma QuotTimes(t: real, n: real, a: real)
    requires a != 0.0 && t == n / a
    ensures t * a == n
  {
  }

  /** `t = (-b + w) / a` with `w * w = b * b - a * c` solves the half-b
      quadratic `a t^2 + 2 b t + c = 0`. */
  lemma RootOfQuadratic(a: real, b: real, c: real, t: real, w: real)
    requires a != 0.0 && t * a == -b + w && w * w == b * b - a * c
    ensures a * t * t + 2.0 * b * t + c == 0.0
  {
    SquareOfShift(t * a, b, w);
    ShiftedSquare(a, b, c, t);
    MulCancelZero(a, a * t * t + 2.0 * b * t + c);
  }

  lemma ExpandSquare(o: real, d: real, t: real)
    ensures (o + d * t) * (o + d * t) == o * o + 2.0 * (o * d) * t + (d * d) * t * t
  {
  }
  lemma SumOfExpansions(ox: real, oy: real, oz: real, dx: real, dy: real, dz: real, t: real)
    ensures (ox + dx * t) * (ox + dx * t) + (oy + dy * t) * (oy + dy * t) + (oz + dz * t) * (oz + dz * t)
      == (dx * dx + dy * dy + dz * dz) * t * t + 2.0 * (ox * dx + oy * dy + oz * dz) * t + (ox * ox + oy * oy + oz * oz)
  {
    ExpandSquare(ox, dx, t);
    ExpandSquare(oy, dy, t);
    ExpandSquare(oz, dz, t);
  }

  /** The squared length of `o + d t`, written through the coefficients
      `a = |d|^2`, `b = o . d` and `c = |o|^2`. */
  lemma SquaredDistanceAlong(ox: real, oy: real, oz: real, dx: real, dy: real, dz: real, t: real,
                             mx: real, my: real, mz: real, a: real, b: real, c: real)
    requires mx == ox + dx * t && my == oy + dy * t && mz == oz + dz * t
    requires a == dx * dx + dy * dy + dz * dz && b == ox * dx + oy * dy + oz * dz && c == ox * ox + oy * oy + oz * oz
    ensures mx * mx + my * my + mz * mz == a * t * t + 2.0 * b * t + c
  {
    SumOfExpansions(ox, oy, oz, dx, dy, dz, t);
  }

  /** Non-negative numbers with equal squares are equal. */
  lemma SqrtUnique(a: real, b: real)
    requires 0.0 <= a && 0.0 <= b && a * a == b * b
    ensures a == b
  {
    if a < b {
      SqMono(b, a);
    } else if b < a {
      SqMono(a, b);
    }
  }

  /** If `m` is the root of `k^2` times the square of `l`, then `m = k l`. */
  lemma ScaledRoot(k: real, l: real, m: real, ll: real, mm: real)
    requires 0.0 <= k && 0.0 <= l && 0.0 <= m && l * l == ll && m * m == mm && mm == k * k * ll
    ensures m == k * l
  {
    assert (k * l) * (k * l) == m * m;
    MulNonNeg(k, l);
    SqrtUnique(m, k * l);
  }

  lemma PosProduct(k: real, l: real, m: real)
    requires 0.0 < k && 0.0 < l && m == k * l
    ensures 0.0 < m
  {
  }

  lemma ScaledQuotient(a: real, k: real, l: real, m: real)
    requires k != 0.0 && l != 0.0 && m == k * l
    ensures (a * k) / m == a / l
  {
  }

  lemma SumOfSquaresScaled(x: real, y: real, z: real, k: real)
    ensures (x * k) * (x * k) + (y * k) * (y * k) + (z * k) * (z * k) == k * k * (x * x + y * y + z * z)
  {
  }

  /** The square of a number in `[-1, 1]` lies in `[0, 1]`. */
  lemma SqUnit(a: real)
    requires -1.0 <= a <= 1.0
    ensures 0.0 <= a * a <= 1.0
  {
    if 0.0 <= a {
      ProdUnit(a, a);
    } else {
      NegSq(a);
      ProdUnit(-a, -a);
    }
  }

  /** Moving a fraction `p` of the way from `s` to one stays in `[s, 1]`. */
  lemma Blend(s: real, p: real)
    requires 0.0 <= s <= 1.0 && 0.0 <= p <= 1.0
    ensures s <= s + (1.0 - s) * p <= 1.0
  {
    MulNonNeg(1.0 - s, p);
    MulNonNeg(1.0 - s, 1.0 - p);
  }
}

=== FILE: sphere.dfy ===
/** Ray-sphere intersection (src/sphere.rs). */
module Spheres {

  import opened RealFacts
  import opened Vec3
  import opened Rays
  import opened HitRecords

  /** A sphere with a centre and a radius. The radius is the divisor of the
      outward normal, so a radius of zero is outside the model. */
  datatype Sphere = Sphere(c: Vec, r: real)

  /** The answer of a `hit` call: whether something was hit, and the record
      as the call leaves it. */
  datatype HitResult = HitResult(hit: bool, rec: HitRecord)

  /** The coefficients of the "half-b" quadratic `a t^2 + 2 b t + c = 0`
      whose roots are the parameters where the ray meets the sphere. */
  datatype Quadratic = Quadratic(a: real, b: real, c: real)

  function Coefficients(s: Sphere, r: Ray): Quadratic
  {
    var oc := Sub(r.orig, [s.c]);
    Quadratic(LenSqrd(r.dir), Dot(oc, r.dir), LenSqrd(oc) - s.r * s.r)
  }

  function Discriminant(q: Quadratic): real
  {
    q.b * q.b - q.a * q.c
  }

  /** The nearer root, tried first. */
  function NearRoot(env: Env, q: Quadratic): real
    requires q.a != 0.0
  {
    (-q.b - env.sqrt(Discriminant(q))) / q.a
  }

  /** The farther root, tried when the nearer one is outside the window. */
  function FarRoot(env: Env, q: Quadratic): real
    requires q.a != 0.0
  {
    (-q.b + env.sqrt(Discriminant(q))) / q.a
  }

  /** The closed window `[tMin, tMax]`, written as the negation of the
      source's rejection test. */
  predicate InWindow(t: real, tMin: real, tMax: real)
  {
    !(t < tMin || t > tMax)
  }

  /** The record filled in for a hit at parameter `t`: the parameter, the
      point on the ray, and the normal oriented against the ray. The
      material is whatever `rec` already held. */
  function Surface(s: Sphere, r: Ray, rec: HitRecord, t: real): HitRecord
    requires s.r != 0.0
  {
    var p := At(r, t);
    SetFaceNorm(rec.(t := t, p := p), r, DivF(Sub(p, [s.c]), s.r))
  }

  /** `Sphere::hit`. A zero direction makes `a` zero, which the source would
      divide by; that case is excluded along with a zero radius. */
  function SphereHit(env: Env, s: Sphere, r: Ray, tMin: real, tMax: real, rec: HitRecord): HitResult
    requires s.r != 0.0 && LenSqrd(r.dir) != 0.0
  {
    var q := Coefficients(s, r);
    if Discriminant(q) < 0.0 then
      HitResult(false, rec)
    else if InWindow(NearRoot(env, q), tMin, tMax) then
      HitResult(true, Surface(s, r, rec, NearRoot(env, q)))
    else if InWindow(FarRoot(env, q), tMin, tMax) then
      HitResult(true, Surface(s, r, rec, FarRoot(env, q)))
    else
      HitResult(false, rec)
  }

  // ---------------------------------------------------------------------
  // What a hit is.

  /** The sphere is hit exactly when the quadratic has real roots and one
      of them lies in the window. The nearer root wins when it is in the
      window; otherwise the farther one is taken. A miss leaves the record
      as it was; a hit lies in the window. */
  lemma SphereHitSpec(env: Env, s: Sphere, r: Ray, tMin: real, tMax: real, rec: HitRecord)
    requires s.r != 0.0 && LenSqrd(r.dir) != 0.0
    ensures var q := Coefficients(s, r);
      SphereHit(env, s, r, tMin, tMax, rec).hit <==>
        0.0 <= Discriminant(q) && (InWindow(NearRoot(env, q), tMin, tMax) || InWindow(FarRoot(env, q), tMin, tMax))
    ensures !SphereHit(env, s, r, tMin, tMax, rec).hit ==> SphereHit(env, s, r, tMin, tMax, rec).rec == rec
    ensures var res := SphereHit(env, s, r, tMin, tMax, rec);
      res.hit ==> tMin <= res.rec.t <= tMax
    ensures var q := Coefficients(s, r); var res := SphereHit(env, s, r, tMin, tMax, rec);
      res.hit ==>
        (InWindow(NearRoot(env, q), tMin, tMax) ==> res.rec.t == NearRoot(env, q)) &&
        (!InWindow(NearRoot(env, q), tMin, tMax) ==> res.rec.t == FarRoot(env, q))
  {
  }

  /** The record a hit leaves: the point is the ray at the hit parameter,
      the normal is `(p - c) / r` (outward for a positive radius, inward
      for a negative one) or its opposite, it
      never points along the ray, the front-face flag says which, and the
      material is the one the record already carried. */
  lemma SphereHitRecord(env: Env, s: Sphere, r: Ray, tMin: real, tMax: real, rec: HitRecord)
    requires s.r != 0.0 && LenSqrd(r.dir) != 0.0
    ensures var res := SphereHit(env, s, r, tMin, tMax, rec);
      res.hit ==>
        res.rec.p == At(r, res.rec.t) &&
        res.rec.mat == rec.mat &&
        Dot(r.dir, res.rec.n) <= 0.0 &&
        (res.rec.frontFace <==> Dot(r.dir, DivF(Minus(res.rec.p, s.c), s.r)) < 0.0) &&
        (res.rec.n == DivF(Minus(res.rec.p, s.c), s.r) || res.rec.n == Neg(DivF(Minus(res.rec.p, s.c), s.r)))
  {
    var res := SphereHit(env, s, r, tMin, tMax, rec);
    if res.hit {
      var t := res.rec.t;
      var p := At(r, t);
      SubIsSum(p, [s.c]);
      assert Sum([s.c]) == Plus(s.c, Sum([]));
      SetFaceNormSpec(rec.(t := t, p := p), r, DivF(Sub(p, [s.c]), s.r));
    }
  }

  /** The record passed in contributes only its material to a hit, and
      nothing to whether there is one. */
  lemma SphereHitIgnoresRecord(env: Env, s: Sphere, r: Ray, tMin: real, tMax: real, rec1: HitRecord, rec2: HitRecord)
    requires s.r != 0.0 && LenSqrd(r.dir) != 0.0
    ensures SphereHit(env, s, r, tMin, tMax, rec1).hit == SphereHit(env, s, r, tMin, tMax, rec2).hit
    ensures rec1.mat == rec2.mat && SphereHit(env, s, r, tMin, tMax, rec1).hit ==>
      SphereHit(env, s, r, tMin, tMax, rec1).rec == SphereHit(env, s, r, tMin, tMax, rec2).rec
  {
  }

  // ---------------------------------------------------------------------
  // Geometry of the roots.

  /** With a real discriminant the nearer root is not after the farther. */
  lemma NearNotAfterFar(env: Env, s: Sphere, r: Ray)
    requires env.Valid() && LenSqrd(r.dir) != 0.0
    requires 0.0 <= Discriminant(Coefficients(s, r))
    ensures NearRoot(env, Coefficients(s, r)) <= FarRoot(env, Coefficients(s, r))
  {
    var q := Coefficients(s, r);
    LenSqrdIsDot(r.dir);
    SqrtSpec(env, Discriminant(q));
    QuotMono(-q.b - env.sqrt(Discriminant(q)), -q.b + env.sqrt(Discriminant(q)), q.a);
  }

  /** A hit point lies on the sphere: its squared distance from the centre
      is the squared radius. */
  lemma HitPointOnSphere(env: Env, s: Sphere, r: Ray, tMin: real, tMax: real, rec: HitRecord)
    requires env.Valid() && s.r != 0.0 && LenSqrd(r.dir) != 0.0
    ensures var res := SphereHit(env, s, r, tMin, tMax, rec);
      res.hit ==> LenSqrd(Minus(res.rec.p, s.c)) == s.r * s.r
  {
    var q := Coefficients(s, r);
    if 0.0 <= Discriminant(q) {
      if InWindow(NearRoot(env, q), tMin, tMax) {
        SurfaceOnSphere(env, s, r, rec, NearRoot(env, q));
      } else if InWindow(FarRoot(env, q), tMin, tMax) {
        SurfaceOnSphere(env, s, r, rec, FarRoot(env, q));
      }
    }
  }

  /** The record filled in at either root has its point on the sphere. */
  lemma SurfaceOnSphere(env: Env, s: Sphere, r: Ray, rec: HitRecord, t: real)
    requires env.Valid() && s.r != 0.0 && LenSqrd(r.dir) != 0.0
    requires 0.0 <= Discriminant(Coefficients(s, r))
    requires t == NearRoot(env, Coefficients(s, r)) || t == FarRoot(env, Coefficients(s, r))
    ensures LenSqrd(Minus(Surface(s, r, rec, t).p, s.c)) == s.r * s.r
  {
    RootSolves(env, Coefficients(s, r), t);
    OnSphere(s, r, t);
  }

  /** The normal a hit records has unit length, whichever way it is
      turned and whatever the sign of the radius. */
  lemma HitNormalIsUnit(env: Env, s: Sphere, r: Ray, tMin: real, tMax: real, rec: HitRecord)
    requires env.Valid() && s.r != 0.0 && LenSqrd(r.dir) != 0.0
    ensures var res := SphereHit(env, s, r, tMin, tMax, rec);
      res.hit ==> LenSqrd(res.rec.n) == 1.0
  {
    var res := SphereHit(env, s, r, tMin, tMax, rec);
    if res.hit {
      SphereHitRecord(env, s, r, tMin, tMax, rec);
      HitPointOnSphere(env, s, r, tMin, tMax, rec);
      ScaledByRadius(Minus(res.rec.p, s.c), s.r);
    }
  }

  /** A vector of length `|k|`, divided by `k`, is a unit vector, and so is
      its opposite. */
  lemma ScaledByRadius(m: Vec, k: real)
    requires k != 0.0 && LenSqrd(m) == k * k
    ensures LenSqrd(DivF(m, k)) == 1.0 && LenSqrd(Neg(DivF(m, k))) == 1.0
  {
    var u := DivF(m, k);
    var kk := LenSqrd(m);
    assert kk == m.x * m.x + m.y * m.y + m.z * m.z;
    if kk == 0.0 {
      MulCancelZero(k, k);
    }
    DivThenMul(m.x, k);
    DivThenMul(m.y, k);
    DivThenMul(m.z, k);
    assert u.x * k == m.x && u.y * k == m.y && u.z * k == m.z;
    QuotientsSquareToOne(m.x, m.y, m.z, k, kk, u.x, u.y, u.z);
    NegSq(u.x);
    NegSq(u.y);
    NegSq(u.z);
  }

  /** Either root solves the quadratic. */
  lemma RootSolves(env: Env, q: Quadratic, t: real)
    requires env.Valid() && q.a != 0.0 && 0.0 <= Discriminant(q)
    requires t == NearRoot(env, q) || t == FarRoot(env, q)
    ensures q.a * t * t + 2.0 * q.b * t + q.c == 0.0
  {
    var sq := env.sqrt(Discriminant(q));
    SqrtSpec(env, Discriminant(q));
    if t == NearRoot(env, q) {
      QuotTimes(t, -q.b - sq, q.a);
      NegSq(sq);
      RootOfQuadratic(q.a, q.b, q.c, t, -sq);
    } else {
      QuotTimes(t, -q.b + sq, q.a);
      RootOfQuadratic(q.a, q.b, q.c, t, sq);
    }
  }

  /** The point at `t` is at squared distance `a t^2 + 2 b t + c + r^2`
      from the centre. */
  lemma OnSphere(s: Sphere, r: Ray, t: real)
    ensures var q := Coefficients(s, r);
      LenSqrd(Minus(At(r, t), s.c)) == q.a * t * t + 2.0 * q.b * t + q.c + s.r * s.r
  {
    var oc := Sub(r.orig, [s.c]);
    SubOne(r.orig, s.c);
    AtIsPlus(r, t);
    assert Minus(At(r, t), s.c) == Plus(oc, MulF(r.dir, t));
    DistanceAlong(oc, r.dir, t);
  }

  /** The squared length of `o + d t` as a quadratic in `t`. */
  lemma DistanceAlong(o: Vec, d: Vec, t: real)
    ensures LenSqrd(Plus(o, MulF(d, t))) == LenSqrd(d) * t * t + 2.0 * Dot(o, d) * t + LenSqrd(o)
  {
    var m := Plus(o, MulF(d, t));
    assert m.x == o.x + d.x * t && m.y == o.y + d.y * t && m.z == o.z + d.z * t;
    assert LenSqrd(m) == m.x * m.x + m.y * m.y + m.z * m.z;
    SquaredDistanceAlong(o.x, o.y, o.z, d.x, d.y, d.z, t, m.x, m.y, m.z, LenSqrd(d), Dot(o, d), LenSqrd(o));
  }
  // ---------------------------------------------------------------------
  // Narrowing the window.

  /** Lowering the upper end of the window from `hi` to `lo` keeps a hit
      exactly when the hit found with `hi` was at or before `lo`, and then
      it is the same hit. This is what lets a closest-hit scan shrink its
      window after each hit. */
  lemma WindowNarrowing(env: Env, s: Sphere, r: Ray, tMin: real, lo: real, hi: real, rec: HitRecord)
    requires env.Valid() && s.r != 0.0 && LenSqrd(r.dir) != 0.0 && lo <= hi
    ensures SphereHit(env, s, r, tMin, lo, rec).hit <==>
      SphereHit(env, s, r, tMin, hi, rec).hit && SphereHit(env, s, r, tMin, hi, rec).rec.t <= lo
    ensures SphereHit(env, s, r, tMin, lo, rec).hit ==>
      SphereHit(env, s, r, tMin, lo, rec) == SphereHit(env, s, r, tMin, hi, rec)
  {
    SphereHitSpec(env, s, r, tMin, lo, rec);
    SphereHitSpec(env, s, r, tMin, hi, rec);
    if 0.0 <= Discriminant(Coefficients(s, r)) {
      NearNotAfterFar(env, s, r);
    }
  }
}

=== FILE: util.dfy ===
/** Output and sampling helpers (src/util.rs).

    `write_colour` turns an accumulated colour into three integer channels:
    it divides by the sample count, applies gamma 2 through `sqrt`, clamps to
    `[0, 0.999]`, scales by 256 and casts to `i32`. Only that mapping is
    modelled; writing the text line is I/O. `randmm_f32` takes its uniform
    draw as a parameter. */
module Util {

  import opened RealFacts
  import opened Vec3

  const I32Max: int := 0x7fff_ffff
  const I32Min: int := -0x8000_0000

  /** `x as i32` for a finite `x`: truncation toward zero, saturating at the
      bounds of `i32`. */
  function AsI32(x: real): (r: int)
    ensures I32Min <= r <= I32Max
    ensures 0.0 <= x <= I32Max as real ==> r as real <= x < r as real + 1.0
    ensures I32Min as real <= x < 0.0 ==> r as real - 1.0 < x <= r as real
    ensures I32Max as real <= x ==> r == I32Max
    ensures x <= I32Min as real ==> r == I32Min
  {
    if 0.0 <= x then
      if x.Floor > I32Max then I32Max else x.Floor
    else
      var t := -((-x).Floor);
      if t < I32Min then I32Min else t
  }

  /** `f32::clamp` (the source always passes `lo <= hi`). */
  function Clamp(x: real, lo: real, hi: real): (r: real)
    requires lo <= hi
    ensures lo <= r <= hi
    ensures lo <= x <= hi ==> r == x
    ensures x < lo ==> r == lo
    ensures hi < x ==> r == hi
  {
    if x < lo then lo else if hi < x then hi else x
  }

  /** One output channel of `write_colour` for the accumulated value `c` and
      the sample count `n`.

      The source computes in `f32`: with `n = 0` the scale `1 / n` is
      infinite, so a positive channel becomes infinite and clamps to 0.999,
      while a zero channel becomes NaN; `sqrt` of a negative value is NaN; and
      NaN survives `clamp` and casts to 0. */
  function Channel(env: Env, c: real, n: int): int
  {
    if n == 0 then
      if 0.0 < c then AsI32(256.0 * 0.999) else 0
    else
      var q := c * (1.0 / n as real);
      if q < 0.0 then 0
      else AsI32(256.0 * Clamp(env.sqrt(q), 0.0, 0.999))
  }

  /** The three channels `write_colour` prints. */
  datatype Pixel = Pixel(r: int, g: int, b: int)

  function WriteColour(env: Env, c: Vec, n: int): Pixel
  {
    Pixel(Channel(env, c.x, n), Channel(env, c.y, n), Channel(env, c.z, n))
  }

  /** `randmm_f32(min, max)` with the uniform draw `u` of `rand_f32` given. */
  function RandMM(min: real, max: real, u: real): real
  {
    min + (max - min) * u
  }

  // ---------------------------------------------------------------------
  // The channel mapping.

  /** Every channel is a byte value. */
  lemma ChannelInRange(env: Env, c: real, n: int)
    ensures 0 <= Channel(env, c, n) <= 255
  {
    if n != 0 {
      var q := c * (1.0 / n as real);
      if 0.0 <= q {
        var m := Clamp(env.sqrt(q), 0.0, 0.999);
        assert 0.0 <= 256.0 * m <= 255.744;
      }
    }
  }

  /** A black channel stays black, whatever the sample count. */
  lemma ChannelOfBlack(env: Env, n: int)
    requires env.Valid()
    ensures Channel(env, 0.0, n) == 0
  {
    if n != 0 {
      assert 0.0 * (1.0 / n as real) == 0.0;
      SqrtOfZero(env);
    }
  }

  lemma SqrtOfZero(env: Env)
    requires env.Valid()
    ensures env.sqrt(0.0) == 0.0
  {
    SqrtSpec(env, 0.0);
    SqUpper(env.sqrt(0.0), 0.0);
  }

  /** A channel whose gamma-corrected value reaches the clamp prints as 255. */
  lemma ChannelSaturates(env: Env, c: real, n: int)
    requires n != 0 && 0.0 <= c * (1.0 / n as real)
    requires 0.999 <= env.sqrt(c * (1.0 / n as real))
    ensures Channel(env, c, n) == 255
  {
  }

  /** Gamma 2, stated without `sqrt`: below the clamp, the channel `k` is the
      integer with `(k / 256)^2 <= c / n < ((k + 1) / 256)^2`; at the clamp it
      is 255 and still `(255 / 256)^2 <= c / n`. */
  lemma ChannelGamma(env: Env, c: real, n: int)
    requires env.Valid() && n != 0 && 0.0 <= c * (1.0 / n as real)
    ensures var k := Channel(env, c, n) as real;
      var q := c * (1.0 / n as real);
      && k * k <= 65536.0 * q
      && (k < 255.0 ==> 65536.0 * q < (k + 1.0) * (k + 1.0))
  {
    var q := c * (1.0 / n as real);
    var s := env.sqrt(q);
    SqrtSpec(env, q);
    var k := Channel(env, c, n);
    var m := Clamp(s, 0.0, 0.999);
    assert k == AsI32(256.0 * m);
    assert 0.0 <= k as real <= 256.0 * m <= 256.0 * s;
    ScaledSquare(s, q, 256.0 * s);
    MonoSquareLe(k as real, 256.0 * s);
    if k < 255 {
      assert m == s;
      assert 256.0 * s < k as real + 1.0;
      SqMono(k as real + 1.0, 256.0 * s);
    }
  }

  lemma ScaledSquare(s: real, q: real, t: real)
    requires s * s == q && t == 256.0 * s
    ensures t * t == 65536.0 * q
  {
  }

  lemma MonoSquareLe(a: real, b: real)
    requires 0.0 <= a <= b
    ensures a * a <= b * b
  {
    if a < b {
      SqMono(b, a);
    }
  }

  /** With a positive sample count, a brighter accumulated value never prints
      darker. */
  lemma ChannelMonotone(env: Env, c: real, d: real, n: int)
    requires env.Valid() && 0 < n && c <= d
    ensures Channel(env, c, n) <= Channel(env, d, n)
  {
    var p, q := c * (1.0 / n as real), d * (1.0 / n as real);
    ScaledOrder(c, d, n);
    if 0.0 <= p {
      GammaMono(env, p, q);
      ChannelOfScaled(env, c, n, p);
      ChannelOfScaled(env, d, n, q);
    } else {
      ChannelOfNegative(env, c, n, p);
      ChannelInRange(env, d, n);
    }
  }

  /** The clamped gamma value is monotone on the non-negative numbers. */
  lemma GammaMono(env: Env, p: real, q: real)
    requires env.Valid() && 0.0 <= p <= q
    ensures AsI32(256.0 * Clamp(env.sqrt(p), 0.0, 0.999)) <= AsI32(256.0 * Clamp(env.sqrt(q), 0.0, 0.999))
  {
    SqrtMono(env, p, q);
    ClampMono(env.sqrt(p), env.sqrt(q));
  }

  /** With a positive sample count and a non-negative scaled value `p`, the
      channel is the clamped gamma value of `p`. */
  lemma ChannelOfScaled(env: Env, c: real, n: int, p: real)
    requires 0 < n && p == c * (1.0 / n as real) && 0.0 <= p
    ensures Channel(env, c, n) == AsI32(256.0 * Clamp(env.sqrt(p), 0.0, 0.999))
  {
  }

  /** With a positive sample count, a negative scaled value prints 0. */
  lemma ChannelOfNegative(env: Env, c: real, n: int, p: real)
    requires 0 < n && p == c * (1.0 / n as real) && p < 0.0
    ensures Channel(env, c, n) == 0
  {
  }

  /** Dividing by a positive sample count keeps the order. */
  lemma ScaledOrder(c: real, d: real, n: int)
    requires 0 < n && c <= d
    ensures c * (1.0 / n as real) <= d * (1.0 / n as real)
  {
    ScaleMono(c, d, 1.0 / n as real);
  }

  lemma ScaleMono(c: real, d: real, k: real)
    requires c <= d && 0.0 < k
    ensures c * k <= d * k
  {
  }

  /** The source's `sqrt` is increasing on the non-negative numbers. */
  lemma SqrtMono(env: Env, p: real, q: real)
    requires env.Valid() && 0.0 <= p <= q
    ensures env.sqrt(p) <= env.sqrt(q)
  {
    SqrtSpec(env, p);
    SqrtSpec(env, q);
    RootMono(env.sqrt(p), env.sqrt(q), p, q);
  }

  lemma RootMono(s: real, t: real, p: real, q: real)
    requires 0.0 <= s && 0.0 <= t && s * s == p && t * t == q && p <= q
    ensures s <= t
  {
    SqUpper(s, t);
  }

  lemma ClampMono(a: real, b: real)
    requires a <= b
    ensures AsI32(256.0 * Clamp(a, 0.0, 0.999)) <= AsI32(256.0 * Clamp(b, 0.0, 0.999))
  {
    var x, y := 256.0 * Clamp(a, 0.0, 0.999), 256.0 * Clamp(b, 0.0, 0.999);
    assert 0.0 <= x <= y <= 255.744;
    FloorMono(x, y);
  }

  lemma FloorMono(x: real, y: real)
    requires x <= y
    ensures x.Floor <= y.Floor
  {
  }

  /** Each printed channel depends on its own colour component only. */
  lemma ChannelsIndependent(env: Env, c: Vec, d: Vec, n: int)
    ensures c.x == d.x ==> WriteColour(env, c, n).r == WriteColour(env, d, n).r
    ensures c.y == d.y ==> WriteColour(env, c, n).g == WriteColour(env, d, n).g
    ensures c.z == d.z ==> WriteColour(env, c, n).b == WriteColour(env, d, n).b
  {
  }

  // ---------------------------------------------------------------------
  // Sampling.

  /** A draw in `[0, 1)` lands in `[min, max)`; the ends of the draw range map
      to the ends of the target range. */
  lemma RandMMInRange(min: real, max: real, u: real)
    requires min < max && 0.0 <= u < 1.0
    ensures min <= RandMM(min, max, u) < max
    ensures RandMM(min, max, 0.0) == min && RandMM(min, max, 1.0) == max
  {
    FractionOf(max - min, u, (max - min) * u);
  }

  /** A fraction in `[0, 1)` of a positive width is in `[0, width)`. */
  lemma FractionOf(w: real, u: real, p: real)
    requires 0.0 < w && 0.0 <= u < 1.0 && p == w * u
    ensures 0.0 <= p < w
  {
  }

  /** The map from draw to value is invertible: the draw is recovered from the
      value. */
  lemma RandMMInverse(min: real, max: real, u: real)
    requires min != max
    ensures (RandMM(min, max, u) - min) / (max - min) == u
  {
    MulThenDiv(u, max - min);
  }
}

=== FILE: vec.dfy ===
/** Three-component vectors over the reals (src/vec.rs).

    One type serves as point, direction and colour, as in the source. The
    n-ary operations `Add`, `Sub`, `Mul` and `Div` fold a list of operands
    into `self` from left to right; each is specified against an independent
    reference fold (`Sum`, `Prod`) so that the contract says what the fold
    computes rather than how. */
module Vec3 {

  import opened RealFacts

  datatype Vec = Vec(x: real, y: real, z: real)

  const Zero: Vec := Vec(0.0, 0.0, 0.0)
  const One: Vec := Vec(1.0, 1.0, 1.0)

  /** The operations the model does not interpret. `sqrt` is constrained only
      through `Valid`; `reflect`, `refract` and `nearZero` are used by the
      materials but are not defined in the vector file, so they stay opaque. */
  datatype Env = Env(
    sqrt: real -> real,
    reflect: (Vec, Vec) -> Vec,
    refract: (Vec, Vec, real) -> Vec,
    nearZero: Vec -> bool)
  {
    /** `sqrt` is a square root on the non-negative reals, and nothing more. */
    ghost predicate Valid() {
      forall x: real :: 0.0 <= x ==> 0.0 <= this.sqrt(x) && this.sqrt(x) * this.sqrt(x) == x
    }
  }

  // Binary componentwise building blocks.

  function Plus(a: Vec, b: Vec): Vec {
    Vec(a.x + b.x, a.y + b.y, a.z + b.z)
  }

  function Minus(a: Vec, b: Vec): Vec {
    Vec(a.x - b.x, a.y - b.y, a.z - b.z)
  }

  function Times(a: Vec, b: Vec): Vec {
    Vec(a.x * b.x, a.y * b.y, a.z * b.z)
  }

  function Neg(a: Vec): Vec {
    Vec(-a.x, -a.y, -a.z)
  }

  predicate NonZeroComponents(v: Vec) {
    v.x != 0.0 && v.y != 0.0 && v.z != 0.0
  }

  ghost predicate AllNonZeroComponents(vs: seq<Vec>) {
    forall i :: 0 <= i < |vs| ==> NonZeroComponents(vs[i])
  }

  /** Reference sum of a list of vectors (a right fold). */
  function Sum(vs: seq<Vec>): Vec
  {
    if |vs| == 0 then Zero else Plus(vs[0], Sum(vs[1..]))
  }

  /** Reference componentwise product of a list of vectors (a right fold). */
  function Prod(vs: seq<Vec>): Vec
  {
    if |vs| == 0 then One else Times(vs[0], Prod(vs[1..]))
  }

  lemma {:induction false} ProdNonZero(vs: seq<Vec>)
    requires AllNonZeroComponents(vs)
    ensures NonZeroComponents(Prod(vs))
    decreases |vs|
  {
    if |vs| > 0 {
      ProdNonZero(vs[1..]);
      var p := Prod(vs[1..]);
      assert NonZeroComponents(vs[0]);
      MulNonZero(vs[0].x, p.x);
      MulNonZero(vs[0].y, p.y);
      MulNonZero(vs[0].z, p.z);
    }
  }

  /** `self.add(others)`: `self` plus every operand, accumulated left to right. */
  function Add(v: Vec, others: seq<Vec>): Vec
    decreases |others|
  {
    if |others| == 0 then v else Add(Plus(v, others[0]), others[1..])
  }

  /** `self.sub(others)`: `self` minus every operand, accumulated left to right. */
  function Sub(v: Vec, others: seq<Vec>): Vec
    decreases |others|
  {
    if |others| == 0 then v else Sub(Minus(v, others[0]), others[1..])
  }

  /** `self.mul(others)`: `self` times every operand, componentwise. */
  function Mul(v: Vec, others: seq<Vec>): Vec
    decreases |others|
  {
    if |others| == 0 then v else Mul(Times(v, others[0]), others[1..])
  }

  /** `self.div(others)`: `self` divided by every operand, componentwise. The
      source divides by zero when an operand has a zero component, so that is
      excluded. */
  function Div(v: Vec, others: seq<Vec>): Vec
    requires AllNonZeroComponents(others)
    decreases |others|
  {
    if |others| == 0 then v
    else
      var o := others[0];
      assert NonZeroComponents(o);
      Div(Vec(v.x / o.x, v.y / o.y, v.z / o.z), others[1..])
  }

  /** The left-to-right accumulation of `add` is `self` plus the sum of the
      operands. */
  lemma {:induction false} AddIsSum(v: Vec, others: seq<Vec>)
    ensures Add(v, others) == Plus(v, Sum(others))
    decreases |others|
  {
    if |others| > 0 {
      AddIsSum(Plus(v, others[0]), others[1..]);
    }
  }

  /** The left-to-right accumulation of `sub` is `self` minus the sum of the
      operands. */
  lemma {:induction false} SubIsSum(v: Vec, others: seq<Vec>)
    ensures Sub(v, others) == Minus(v, Sum(others))
    decreases |others|
  {
    if |others| > 0 {
      SubIsSum(Minus(v, others[0]), others[1..]);
    }
  }

  /** The left-to-right accumulation of `mul` is `self` times the product of
      the operands. */
  lemma {:induction false} MulIsProd(v: Vec, others: seq<Vec>)
    ensures Mul(v, others) == Times(v, Prod(others))
    decreases |others|
  {
    if |others| > 0 {
      MulIsProd(Times(v, others[0]), others[1..]);
      MulAssoc(v, others[0], Prod(others[1..]));
    }
  }

  lemma MulAssoc(a: Vec, b: Vec, c: Vec)
    ensures Times(Times(a, b), c) == Times(a, Times(b, c))
  {
    assert (a.x * b.x) * c.x == a.x * (b.x * c.x);
    assert (a.y * b.y) * c.y == a.y * (b.y * c.y);
    assert (a.z * b.z) * c.z == a.z * (b.z * c.z);
  }

  /** Multiplying the result of `div` back by all operands gives `self`. */
  lemma {:induction false} DivUndoneByProd(v: Vec, others: seq<Vec>)
    requires AllNonZeroComponents(others)
    ensures Times(Div(v, others), Prod(others)) == v
    decreases |others|
  {
    if |others| > 0 {
      var o := others[0];
      assert NonZeroComponents(o);
      var q := Vec(v.x / o.x, v.y / o.y, v.z / o.z);
      DivUndoneByProd(q, others[1..]);
      DivStep(v, o, Div(q, others[1..]), Prod(others[1..]));
    }
  }

  lemma DivStep(v: Vec, o: Vec, r: Vec, p: Vec)
    requires NonZeroComponents(o)
    requires Times(r, p) == Vec(v.x / o.x, v.y / o.y, v.z / o.z)
    ensures Times(r, Times(o, p)) == v
  {
    DivStepReal(v.x, o.x, r.x, p.x);
    DivStepReal(v.y, o.y, r.y, p.y);
    DivStepReal(v.z, o.z, r.z, p.z);
  }

  lemma DivStepReal(v: real, o: real, r: real, p: real)
    requires o != 0.0
    requires r * p == v / o
    ensures r * (o * p) == v
  {
    calc {
      r * (o * p);
      o * (r * p);
      o * (v / o);
      v;
    }
  }

  /** `self.mulf(val)`: scaling by a scalar. */
  function MulF(v: Vec, k: real): Vec
  {
    Vec(v.x * k, v.y * k, v.z * k)
  }

  /** `self.divf(val)`: division by a scalar, which must not be zero. */
  function DivF(v: Vec, k: real): Vec
    requires k != 0.0
  {
    Vec(v.x / k, v.y / k, v.z / k)
  }

  /** `self.dot(other)`. */
  function Dot(a: Vec, b: Vec): real
  {
    a.x * b.x + a.y * b.y + a.z * b.z
  }

  /** `self.cross(other)`: the right-handed cross product. */
  function Cross(a: Vec, b: Vec): Vec
  {
    Vec(a.y * b.z - a.z * b.y, a.z * b.x - a.x * b.z, a.x * b.y - a.y * b.x)
  }

  /** `self.len_sqrd()`: the squared Euclidean length. */
  function LenSqrd(v: Vec): real
  {
    v.x * v.x + v.y * v.y + v.z * v.z
  }

  /** `self.len()`: the square root of `LenSqrd`. */
  function Len(env: Env, v: Vec): real
  {
    env.sqrt(LenSqrd(v))
  }

  /** `self.unit()`: `v` divided by its length. The source divides by zero
      when the length is zero, so that case is excluded. */
  function Unit(env: Env, v: Vec): Vec
    requires Len(env, v) != 0.0
  {
    DivF(v, Len(env, v))
  }

  // ---------------------------------------------------------------------
  // Length facts.

  /** The one fact the model assumes of `sqrt`, instantiated at `x`. */
  lemma SqrtSpec(env: Env, x: real)
    requires env.Valid() && 0.0 <= x
    ensures 0.0 <= env.sqrt(x) && env.sqrt(x) * env.sqrt(x) == x
  {
  }

  /** `len_sqrd` is `dot` of a vector with itself, and is never negative. */
  lemma LenSqrdIsDot(v: Vec)
    ensures LenSqrd(v) == Dot(v, v)
    ensures 0.0 <= LenSqrd(v)
  {
    SqNonNeg(v.x);
    SqNonNeg(v.y);
    SqNonNeg(v.z);
  }

  /** `len` is a non-negative number whose square is `len_sqrd`. */
  lemma LenSquared(env: Env, v: Vec)
    requires env.Valid()
    ensures 0.0 <= Len(env, v) && Len(env, v) * Len(env, v) == LenSqrd(v)
  {
    LenSqrdIsDot(v);
    SqrtSpec(env, LenSqrd(v));
  }

  /** Only the zero vector has squared length zero. */
  lemma LenSqrdZero(v: Vec)
    ensures LenSqrd(v) == 0.0 <==> v == Zero
  {
    if LenSqrd(v) == 0.0 {
      SqNonNeg(v.x);
      SqNonNeg(v.y);
      SqNonNeg(v.z);
      ZeroOfSquares(LenSqrd(v), v.x * v.x, v.y * v.y, v.z * v.z);
      SqBound(v.x, 0.0);
      SqBound(v.y, 0.0);
      SqBound(v.z, 0.0);
    }
  }

  /** A vector of non-zero squared length (by `LenSqrdZero`, any vector but
      the zero vector) has a positive length, so `unit` is defined on it. */
  lemma LenNonZero(env: Env, v: Vec)
    requires env.Valid() && LenSqrd(v) != 0.0
    ensures 0.0 < Len(env, v)
  {
    LenSquared(env, v);
    RootNonZero(Len(env, v), LenSqrd(v));
  }

  /** `unit` of a non-zero vector has squared length one and points the same
      way as `v`: scaling it by the length of `v` gives `v` back. */
  lemma UnitSpec(env: Env, v: Vec)
    requires env.Valid() && LenSqrd(v) != 0.0
    ensures Len(env, v) != 0.0
    ensures LenSqrd(Unit(env, v)) == 1.0
    ensures MulF(Unit(env, v), Len(env, v)) == v
  {
    LenSquared(env, v);
    LenNonZero(env, v);
    var l := Len(env, v);
    var u := Unit(env, v);
    DivThenMul(v.x, l);
    DivThenMul(v.y, l);
    DivThenMul(v.z, l);
    QuotientsSquareToOne(v.x, v.y, v.z, l, LenSqrd(v), u.x, u.y, u.z);
  }

  lemma DivThenMul(a: real, l: real)
    requires l != 0.0
    ensures (a / l) * l == a
  {
  }

  /** A unit vector has length one. */
  lemma UnitLenOne(env: Env, v: Vec)
    requires env.Valid() && LenSqrd(v) != 0.0
    ensures Len(env, Unit(env, v)) == 1.0
  {
    UnitSpec(env, v);
    SqrtOfOne(env);
  }

  lemma SqrtOfOne(env: Env)
    requires env.Valid()
    ensures env.sqrt(1.0) == 1.0
  {
    SqrtSpec(env, 1.0);
    RootOfOne(env.sqrt(1.0));
  }

  /** Scaling by a non-negative factor scales the length by that factor. */
  lemma LenOfScaled(env: Env, v: Vec, k: real)
    requires env.Valid() && 0.0 <= k
    ensures Len(env, MulF(v, k)) == k * Len(env, v)
  {
    LenSquared(env, v);
    LenSquared(env, MulF(v, k));
    SumOfSquaresScaled(v.x, v.y, v.z, k);
    ScaledRoot(k, Len(env, v), Len(env, MulF(v, k)), LenSqrd(v), LenSqrd(MulF(v, k)));
  }

  /** `unit` forgets positive scaling: only the direction of `v` matters. */
  lemma UnitOfScaled(env: Env, v: Vec, k: real)
    requires env.Valid() && LenSqrd(v) != 0.0 && 0.0 < k
    ensures Len(env, v) != 0.0 && Len(env, MulF(v, k)) != 0.0
    ensures Unit(env, MulF(v, k)) == Unit(env, v)
  {
    LenNonZero(env, v);
    LenOfScaled(env, v, k);
    var l := Len(env, v);
    var m := Len(env, MulF(v, k));
    PosProduct(k, l, m);
    DivFOfScaled(v, k, l, m);
  }

  lemma DivFOfScaled(v: Vec, k: real, l: real, m: real)
    requires k != 0.0 && l != 0.0 && m == k * l
    ensures DivF(MulF(v, k), m) == DivF(v, l)
  {
    ScaledQuotient(v.x, k, l, m);
    ScaledQuotient(v.y, k, l, m);
    ScaledQuotient(v.z, k, l, m);
  }

  /** Every component of `unit(v)` lies in [-1, 1]. */
  lemma UnitComponentsBounded(env: Env, v: Vec)
    requires env.Valid() && LenSqrd(v) != 0.0
    ensures Len(env, v) != 0.0
    ensures var u := Unit(env, v);
      -1.0 <= u.x <= 1.0 && -1.0 <= u.y <= 1.0 && -1.0 <= u.z <= 1.0
  {
    LenSquared(env, v);
    LenNonZero(env, v);
    var l := Len(env, v);
    CoordinateRatioBounded(v.x, v.y, v.z, l);
    CoordinateRatioBounded(v.y, v.x, v.z, l);
    CoordinateRatioBounded(v.z, v.x, v.y, l);
  }

  // ---------------------------------------------------------------------
  // Properties relating the operations.

  /** `dot` is symmetric. */
  lemma DotCommutes(a: Vec, b: Vec)
    ensures Dot(a, b) == Dot(b, a)
  {
  }

  /** `cross` is anti-symmetric. */
  lemma CrossAntiCommutes(a: Vec, b: Vec)
    ensures Cross(a, b) == Neg(Cross(b, a))
  {
  }

  /** The cross product is orthogonal to both operands. */
  lemma CrossOrthogonal(a: Vec, b: Vec)
    ensures Dot(Cross(a, b), a) == 0.0 && Dot(Cross(a, b), b) == 0.0
  {
  }

  /** `add` with a single operand is binary addition. */
  lemma AddOne(v: Vec, a: Vec)
    ensures Add(v, [a]) == Plus(v, a)
  {
    var d := [a];
    assert d[1..] == [];
    assert Add(v, d) == Add(Plus(v, a), []);
  }

  /** The difference of two vectors is zero exactly when they are equal. */
  lemma MinusZero(a: Vec, b: Vec)
    ensures Minus(a, b) == Zero <==> a == b
  {
    if Minus(a, b) == Zero {
      assert a.x == b.x && a.y == b.y && a.z == b.z;
    }
  }

  /** `sub` with a single operand is binary subtraction. */
  lemma SubOne(v: Vec, a: Vec)
    ensures Sub(v, [a]) == Minus(v, a)
  {
    var d := [a];
    assert d[1..] == [];
    assert Sub(v, d) == Sub(Minus(v, a), []);
  }

  /** Subtracting what was added gives back the addend. */
  lemma MinusPlus(a: Vec, b: Vec)
    ensures Minus(Plus(a, b), a) == b
  {
  }

  /** `divf` undoes `mulf` for every non-zero scalar. */
  lemma DivFMulF(v: Vec, k: real)
    requires k != 0.0
    ensures DivF(MulF(v, k), k) == v
  {
    MulThenDiv(v.x, k);
    MulThenDiv(v.y, k);
    MulThenDiv(v.z, k);
  }

  lemma MulThenDiv(a: real, k: real)
    requires k != 0.0
    ensures (a * k) / k == a
  {
  }

  /** `div` undoes `mul` when no operand has a zero component. */
  lemma DivMulRoundTrip(v: Vec, others: seq<Vec>)
    requires AllNonZeroComponents(others)
    ensures Div(Mul(v, others), others) == v
  {
    var m := Mul(v, others);
    MulIsProd(v, others);
    DivUndoneByProd(m, others);
    ProdNonZero(others);
    CancelTimes(Div(m, others), v, Prod(others));
  }

  /** A factor without zero components cancels from a componentwise product. */
  lemma CancelTimes(r: Vec, v: Vec, p: Vec)
    requires NonZeroComponents(p) && Times(r, p) == Times(v, p)
    ensures r == v
  {
    CancelScalar(r.x, v.x, p.x);
    CancelScalar(r.y, v.y, p.y);
    CancelScalar(r.z, v.z, p.z);
  }

  /** The values the source's unit test asserts for the n-ary folds, in exact
      arithmetic. */
  lemma AddTestValue()
    ensures Add(Vec(1.0, 2.0, 3.0), [Vec(4.0, 5.0, 6.0), Vec(7.0, 8.0, 9.0)]) == Vec(12.0, 15.0, 18.0)
  {
    var others := [Vec(4.0, 5.0, 6.0), Vec(7.0, 8.0, 9.0)];
    assert others[1..] == [Vec(7.0, 8.0, 9.0)];
    assert others[1..][1..] == [];
    assert Add(Vec(1.0, 2.0, 3.0), others) == Add(Vec(5.0, 7.0, 9.0), others[1..]);
    assert Add(Vec(5.0, 7.0, 9.0), others[1..]) == Add(Vec(12.0, 15.0, 18.0), []);
  }

  lemma SubTestValue()
    ensures Sub(Vec(1.0, 2.0, 3.0), [Vec(4.0, 5.0, 6.0), Vec(7.0, 8.0, 9.0)]) == Vec(-10.0, -11.0, -12.0)
  {
    var others := [Vec(4.0, 5.0, 6.0), Vec(7.0, 8.0, 9.0)];
    assert others[1..] == [Vec(7.0, 8.0, 9.0)];
    assert others[1..][1..] == [];
    assert Sub(Vec(1.0, 2.0, 3.0), others) == Sub(Vec(-3.0, -3.0, -3.0), others[1..]);
    assert Sub(Vec(-3.0, -3.0, -3.0), others[1..]) == Sub(Vec(-10.0, -11.0, -12.0), []);
  }

  lemma MulTestValue()
    ensures Mul(Vec(1.0, 2.0, 3.0), [Vec(4.0, 5.0, 6.0), Vec(7.0, 8.0, 9.0)]) == Vec(28.0, 80.0, 162.0)
  {
    var others := [Vec(4.0, 5.0, 6.0), Vec(7.0, 8.0, 9.0)];
    assert others[1..] == [Vec(7.0, 8.0, 9.0)];
    assert others[1..][1..] == [];
    assert Mul(Vec(1.0, 2.0, 3.0), others) == Mul(Vec(4.0, 10.0, 18.0), others[1..]);
    assert Mul(Vec(4.0, 10.0, 18.0), others[1..]) == Mul(Vec(28.0, 80.0, 162.0), []);
  }

  /** The source test's `div` expectations are `f32` roundings of 1/28, 1/20
      and 1/18; in exact arithmetic these are the quotients. */
  lemma DivTestValues()
    ensures Div(Vec(1.0, 2.0, 3.0), [Vec(4.0, 5.0, 6.0), Vec(7.0, 8.0, 9.0)]) == Vec(1.0 / 28.0, 0.05, 1.0 / 18.0)
  {
    var others := [Vec(4.0, 5.0, 6.0), Vec(7.0, 8.0, 9.0)];
    assert others[1..] == [Vec(7.0, 8.0, 9.0)];
    assert others[1..][1..] == [];
    var step := Vec(1.0 / 4.0, 2.0 / 5.0, 3.0 / 6.0);
    assert Div(Vec(1.0, 2.0, 3.0), others) == Div(step, others[1..]);
    assert Div(step, others[1..]) == Div(Vec(step.x / 7.0, step.y / 8.0, step.z / 9.0), []);
  }

  /** The scalar and geometric values the source's unit test asserts. Its
      expected `len` and `unit` values are `f32` roundings of irrational
      numbers; `LenSqrd` carries the exact counterpart. */
  lemma ScalarTestValues()
    ensures LenSqrd(Vec(1.0, 2.0, 3.0)) == 14.0
    ensures MulF(Vec(1.0, 2.0, 3.0), 2.0) == Vec(2.0, 4.0, 6.0)
    ensures DivF(Vec(1.0, 2.0, 3.0), 2.0) == Vec(0.5, 1.0, 1.5)
    ensures Dot(Vec(1.0, 2.0, 3.0), Vec(4.0, 5.0, 6.0)) == 32.0
    ensures Cross(Vec(1.0, 2.0, 3.0), Vec(4.0, 5.0, 6.0)) == Vec(-3.0, 6.0, -3.0)
  {
  }
}
